=== FILE: README.md ===
# Delivery-health dashboard: a verified model of its rule-based core

The repository turns an indicator tree (indicator nodes that own metric
records and child nodes) into a dashboard. Around the rendering there is a
small body of plain logic, and this project models that logic in Dafny:

- **Unit inference** (`fix_json.py`, module `UnitInference`). An ordered
  chain of keyword rules over the lower-cased metric name gives the unit,
  axis label, range and decimals. The first rule that matches wins. The
  chain is also given as a rule table, and the two are proved equal.
- **Series generation** (`fix_json.py`, module `Series`, with `Rounding`).
  A 12-point random walk is clamped to the range, then a sparse-noise pass
  runs over the interior points, then every point is rounded. The random
  source is an explicit sequence of draws in `[0, 1)`, consumed front to
  back. Each function reports how many draws it used.
- **Update driver** (`fix_json.py`, module `UpdateDriver`). `update_metrics`
  and `process_tree` walk the tree in pre-order and overwrite four fields of
  every metric. The model proves that every metric ends up generated and
  that nothing else changes.
- **Navigation** (`main.py`, module `Navigation`). `build_radio_options`
  flattens the tree into `(path, label)` sidebar entries, and
  `find_node_by_path` looks a node up by its slash-separated path. The main
  result is a round trip: the path emitted for a node finds that node.
  This holds when no indicator contains `/`, none is empty, and siblings
  have distinct indicators. The paths themselves are the `/`-joins of the
  names from the root whenever every name is non-empty and neither starts
  nor ends with `/`, and the labels are stated for every tree.
- **Metric card trend** (`main.py`, module `MetricCard`). The up/down/neutral
  trend of a series, whether that move is good, and the arrow and colour
  shown for it.
- **Narrative helpers** (`pages/01_what_happened.py`, modules `IndicatorTree`
  and `Narrative`):
  - `iter_metrics` pre-order flattening;
  - the `name2metric` map;
  - the keyword rule that picks the default option;
  - `long_paragraph`, which pads a paragraph to a word count.

Modules `Base` (an `Option` type) and `Text` (Python's `in`, `lower`,
`strip`, `split`, `join` and `len(s.split())` on strings) support the rest.

Two behaviours of the code are worth stating plainly.

**The drift-only stretch of the walk is points 1 to 3.** The regime-shift
branch is gated on the loop counter `i > 2`, and loop iteration `i` produces
point `i + 1`. So point 4 can already be a regime shift.
`Series.WalkStepsBounded` proves the drift bound (a tenth of the width) for
points 1 to 3 and the regime bound (four tenths) after that.
`Series.FourthStepMayJump` exhibits a step into point 4 that exceeds the
drift bound.

**The "maintainability index" rule is dead.** The plain "index" rule is
tried first, so the label "Maintainability Index" is never produced
(`UnitInference.MaintainabilityRuleUnreachable`).

## Model

| member | source | states |
|---|---|---|
| `UnitInference.Classify` | fix_json.py:6-28 | the rule chain on a lower-cased name always gives a range starting at 0 with `min < max` and 0 or 1 decimals; `ClassifyIsFirstMatch` equates it with first-match over the rule table |
| `UnitInference.GuessUnitAndRange` | fix_json.py:4-28 | total on every name; the range always starts at 0 with `min < max`, and the decimals are 0 or 1 |
| `UnitInference.UnitNameInjective` | fix_json.py:6-28 | the nine unit tags are distinct, so a tag determines its unit |
| `UnitInference.GuessIsCaseInsensitive` | fix_json.py:5 | the result depends only on the lower-cased name |
| `UnitInference.FirstMatchAt` | fix_json.py:6-28 | trying rules from position `k` gives rule `k`'s outcome when its guard holds, else the outcome of the later rules |
| `UnitInference.LateRulesMatch` | fix_json.py:20-28 | the last four rules of the table decide as the touch-time, index, maintainability and complexity branches do, falling to the default |
| `UnitInference.MiddleRulesMatch` | fix_json.py:12-19 | the count, days, hours and minutes rules of the table decide as the chain's branches do |
| `UnitInference.ClassifyIsFirstMatch` | fix_json.py:6-28 | the if-chain equals first-match-wins over the rule table |
| `UnitInference.GuessFollowsRuleTable` | fix_json.py:4-28 | `guess_unit_and_range` is the rule table applied to the lower-cased name |
| `UnitInference.ScoreRuleWins` | fix_json.py:6-7 | any name containing "score" or "rate" is a 0–10 score with one decimal, whatever else it contains |
| `UnitInference.SelfAssessmentKeywordRedundant` | fix_json.py:6 | the "self-assessment score" keyword adds nothing to "rate" or "score" |
| `UnitInference.MaintainabilityRuleUnreachable` | fix_json.py:22-25 | no name ever gets the maintainability outcome or the "Maintainability Index" label |
| `UnitInference.MaintainabilityNamesGetIndex` | fix_json.py:22-25 | a "maintainability index" name whose unit is none of score, %, sprints, count, days, hours or minutes gets the plain "Index" outcome |
| `UnitInference.IndexNameOutcomes` | fix_json.py:6-23 | a name containing "index" is claimed by one of the eight rules before the "index" rule or gets the "Index" outcome |
| `UnitInference.SprintsRuleExactly` | fix_json.py:6-11 | the sprints unit arises exactly when "sprint" and one of its companions occur and neither the score nor the percent rule matched |
| `UnitInference.NumberOfIsCount` | fix_json.py:10-13 | a "number of" name that the first three rules leave alone is a count in 0..120 with no decimals |
| `UnitInference.DefaultExactlyWhenNoRuleMatches` | fix_json.py:6-28 | `("count", "Count", 0, 100, 0)` arises exactly when no rule's guard holds |
| `Rounding.Round` | fix_json.py:44 | `round(x, d)`; its behaviour is stated by `RoundIdempotent`, `RoundMonotone`, `RoundInteger` and `RoundWithin` |
| `Rounding.RoundHalfEven` | fix_json.py:44 | the result is within one half of the input, and an exact half goes to the even neighbour |
| `Rounding.RoundHalfEvenMonotone` | fix_json.py:44 | nearest-integer rounding keeps order |
| `Rounding.RoundIdempotent` | fix_json.py:52 | rounding an already rounded value changes nothing, so the stored value equals the last rounded point |
| `Rounding.RoundMonotone` | fix_json.py:44 | `round(x, d)` keeps order |
| `Rounding.RoundInteger` | fix_json.py:44 | whole numbers are left alone at every precision |
| `Rounding.RoundWithin` | fix_json.py:44 | rounding keeps a value inside whole-number bounds |
| `Series.Uniform` | fix_json.py:31 | `random.uniform(a, b)` lies in `[a, b]` for a draw in `[0, 1]` |
| `Series.Clamp` | fix_json.py:38 | `max(min(x, hi), lo)` lies in the range and leaves in-range values alone |
| `Series.ClampShortensStep` | fix_json.py:38 | clamping a step taken from inside the range never lengthens it |
| `Series.ScaledUniformBound` | fix_json.py:35-37 | a uniform factor in `[-a, a]` times the width is at most `a` widths |
| `Series.Shifted` | fix_json.py:35-38 | a shifted-and-clamped point is in range, and moves at most `a` widths from an in-range point |
| `Series.WalkStep` | fix_json.py:34-39 | one loop iteration yields a point in the range, or `minval` when the bounds are swapped |
| `Series.WalkStepBound` | fix_json.py:34-38 | from an in-range point, the step into point `i + 1` is at most a tenth of the width while `i <= 2`, and at most four tenths after |
| `Series.WalkFrom` | fix_json.py:33-39 | the loop completes the series to 12 points, keeps the points it started from and consumes two draws per point |
| `Series.Walk` | fix_json.py:31-39 | the walk has 12 points, starts at `uniform(min, max)` and consumes 23 draws |
| `Series.WalkFromSteps` | fix_json.py:33-39 | each point of the loop's output is one step from its predecessor, taken with its own two draws |
| `Series.WalkPoints` | fix_json.py:31-39 | point `k` of the walk is one step from point `k - 1`, with loop counter `k - 1` and draws `2k - 1` and `2k` |
| `Series.WalkWithinRange` | fix_json.py:31-39 | with `min <= max` every walk point lies in the range; with the bounds swapped every point after the start is `min` |
| `Series.WalkStepsBounded` | fix_json.py:33-38 | consecutive walk points differ by at most a tenth of the width for points 1 to 3 and four tenths for later points |
| `Series.FourthStepMayJump` | fix_json.py:34-35 | a step into point 4 can exceed the drift bound |
| `Series.NoiseFrom` | fix_json.py:40-43 | the noise loop keeps the length and every point outside `2..len-3`, moves each touched in-range point by at most 0.3 widths inside the range, and uses one or two draws per point |
| `Series.RoundAll` | fix_json.py:44 | every point is replaced by `round(point, decimals)`, so each carries at most `decimals` decimals |
| `Series.RoundAllWithin` | fix_json.py:44 | a series lying within whole-number bounds still lies within them after rounding |
| `Series.RawSeries` | fix_json.py:30-43 | the unrounded series has 12 points and uses between 31 and 39 draws |
| `Series.GenerateRealisticTimeseries` | fix_json.py:30-44 | 12 points, each rounded to `decimals` and, when `min <= max`, inside `[min, max]` |
| `Series.UnitIsIgnored` | fix_json.py:30-44 | the unit argument has no effect on the series |
| `Series.RawSeriesWithin` | fix_json.py:31-43 | with `min <= max` every point lies in the range after the walk and after the noise |
| `Series.NoiseSparesEnds` | fix_json.py:40-43 | points 0, 1, 10 and 11 keep their walk values |
| `Series.NoiseIsBounded` | fix_json.py:40-43 | the noise moves each interior point at most 0.3 widths from its walk value |
| `Series.SwappedRangeCollapses` | fix_json.py:31-44 | with `max < min` every point after the first is `min` |
| `IndicatorTree.Preorder` | pages/01_what_happened.py:28-31 | the node order both tree walks follow (a node, its subtree, then its later siblings); stated by `PreorderAppend`, `PreorderLayout` and `RootPosition` |
| `IndicatorTree.IterMetrics` | pages/01_what_happened.py:27-31 | `iter_metrics`; stated by `IterMetricsIsPreorder` and `IterMetricsCount` |
| `IndicatorTree.PreorderAppend` | pages/01_what_happened.py:27-31 | pre-order of a concatenated forest is the concatenation of the pre-orders |
| `IndicatorTree.PreorderLayout` | main.py:24-30 | in pre-order, node `i` of a forest comes after the earlier siblings' subtrees, followed by its own subtree |
| `IndicatorTree.RootPosition` | main.py:24-30 | root `i` of a forest sits in pre-order right after the earlier siblings' subtrees |
| `IndicatorTree.IterMetricsIsPreorder` | pages/01_what_happened.py:27-31 | `iter_metrics` yields each node's own metric list once, node by node in pre-order |
| `IndicatorTree.IterMetricsCount` | pages/01_what_happened.py:27-31 | `iter_metrics` yields as many records as the nodes hold together: the sum of the metric-list lengths over the pre-order |
| `IndicatorTree.SameShapeTransitive` | fix_json.py:55-61 | a rewrite of a rewrite keeps the original shape |
| `IndicatorTree.SameShapeCount` | fix_json.py:55-61 | trees of the same shape hold the same number of metrics |
| `UpdateDriver.UpdateMetric` | fix_json.py:47-52 | one metric's update uses at most 39 draws |
| `UpdateDriver.UpdateMetricUpdates` | fix_json.py:47-52 | the update writes the inferred unit tag and label, a 12-point in-range rounded series and a value equal to its last point, and keeps name, description and target |
| `UpdateDriver.UpdateMetrics` | fix_json.py:46-53 | the list keeps its length, and the loop stays within 39 draws per metric |
| `UpdateDriver.UpdateMetricsUpdatesAll` | fix_json.py:46-53 | every metric of the list, position by position, is updated as above |
| `UpdateDriver.UpdatedListIndex` | fix_json.py:47-52 | the list-wise update relation holds at every position |
| `UpdateDriver.ProcessTree` | fix_json.py:55-61 | `process_tree` stays within 39 draws per metric of the tree |
| `UpdateDriver.ProcessForest` | fix_json.py:58-60 | the children loop keeps the number of children and stays within the budget |
| `UpdateDriver.ProcessTreeRewrites` | fix_json.py:55-61 | every metric of the tree is generated; indicators, descriptions, data sources, metric names, order and counts are unchanged, and the children keep their shape and are rewritten the same way |
| `UpdateDriver.ProcessForestRewrites` | fix_json.py:58-60 | the same, child by child |
| `UpdateDriver.BareNodeUnchanged` | fix_json.py:55-61 | a node without metrics or children comes back unchanged and uses no draws |
| `UpdateDriver.ReprocessingKeepsShape` | fix_json.py:55-61 | processing a tree of the same shape again, such as the driver's own output, uses the same budget and again yields a rewrite of the original |
| `UpdateDriver.IteratedMetricsGenerated` | pages/01_what_happened.py:27-31 | on a processed tree, every metric `iter_metrics` yields is generated |
| `Navigation.BuildRadioOptions` | main.py:22-31 | exactly one entry per node of the forest |
| `Navigation.Placements` | main.py:24-30 | one placement per node |
| `Navigation.RenderAll` | main.py:28 | entry `i` is the rendering of placement `i` |
| `Navigation.NodePathExtends` | main.py:25 | for names that are non-empty and neither start nor end with `/`, joining a parent path and a name and then stripping `/` gives the `/`-join of the longer name list |
| `Navigation.OptionsRenderPlacements` | main.py:22-31 | when every name is non-empty and neither starts nor ends with `/`, the entries are the placements, each rendered as its `/`-joined names with `4 * level` `&nbsp;`, its icon and its indicator |
| `Navigation.PlacementsFollowPreorder` | main.py:24-30 | placement `i` is the node pre-order visits at position `i` |
| `Navigation.PlacementShape` | main.py:24-30 | each node's names extend its ancestors' and end with its own indicator, and its level is its depth |
| `Navigation.RenderDescribes` | main.py:25-28 | a root-level placement renders to a path joining its names, a label indented by its depth, and "▶ " exactly when it has children |
| `Navigation.OptionCaptionsFollowPlacements` | main.py:22-31 | for every forest, whatever its names, entry `i` carries the caption of placement `i`: `4 * level` `&nbsp;`, its icon and its indicator |
| `Navigation.PlacementAt` | main.py:24-30 | placement `i` holds the `i`-th node in pre-order, and its level is its depth |
| `Navigation.OptionCaption` | main.py:22-31 | for every forest, entry `i` is captioned with `4 * depth` `&nbsp;`, the icon and the indicator of the `i`-th node in pre-order |
| `Navigation.WellNamedForestSegments` | main.py:25 | names without any `/` keep their `/` boundaries when joined |
| `Navigation.OptionDescribesNode` | main.py:22-31 | when every name is non-empty and neither starts nor ends with `/`, entry `i` belongs to the `i`-th node in pre-order: its path joins the names from the root to it, and its label has indent, icon and indicator |
| `Navigation.FindNodeByPath` | main.py:35-44 | whatever the path, the node found is a node of the forest, and an empty forest yields nothing; which node, path by path, is stated by the lemmas below |
| `Navigation.FirstWithIndicator` | main.py:39-40 | the loop stops at the first sibling whose indicator equals the segment |
| `Navigation.EmptyPathSelectsFirst` | main.py:36-37 | the empty path returns the first node |
| `Navigation.UnmatchedSegmentFallsBack` | main.py:38-44 | an unmatched first segment returns the first node of the level, and `None` on an empty level |
| `Navigation.FirstDuplicateWins` | main.py:39-42 | with duplicate sibling names the first of them is returned |
| `Navigation.FindFollowsNames` | main.py:35-44 | looking up the `/`-join of well-formed names walks the tree name by name |
| `Navigation.LocateSkipsFirst` | main.py:39-40 | a first sibling with a different name is skipped |
| `Navigation.PlacementsLocate` | main.py:35-44 | with distinct sibling names, every placement's names lead back to its node |
| `Navigation.PlacementNamesWellNamed` | main.py:25 | the names of every placement can stand as path segments |
| `Navigation.OptionPathsFindTheirNodes` | main.py:22-44 | round trip: the path of entry `i` finds the `i`-th node in pre-order |
| `MetricCard.TrendOf` | main.py:57 | the trend; stated by `TrendIsSignOfDelta`, `TrendDependsOnEnds` and `ReversalFlipsTrend` |
| `MetricCard.IsGood` | main.py:70 | `is_good`; stated by `NeutralNeverGood`, `PreferenceFlipsGoodness` and `GoodnessFromDelta` |
| `MetricCard.Arrow` | main.py:71 | the arrow; stated by `CardMeaning` (empty exactly when the series is flat) |
| `MetricCard.ArrowColor` | main.py:72 | the arrow colour; stated by `CardMeaning` (green iff good, red iff a move the wrong way, grey iff flat) |
| `MetricCard.CardTrend` | main.py:47-50 | a trend is computed exactly when the series is present and non-empty |
| `MetricCard.TrendIsSignOfDelta` | main.py:57-58 | up iff last > first, down iff last < first, neutral iff they are equal |
| `MetricCard.TrendDependsOnEnds` | main.py:57 | only the first and last values decide the trend |
| `MetricCard.ReversalFlipsTrend` | main.py:57 | reading the series backwards gives the opposite trend |
| `MetricCard.NeutralNeverGood` | main.py:70 | a neutral trend is never good |
| `MetricCard.PreferenceFlipsGoodness` | main.py:70 | for a moving series, flipping `higher_is_better` flips goodness |
| `MetricCard.GoodnessFromDelta` | main.py:57-70 | good iff the change is positive for higher-is-better metrics, and negative for lower-is-better ones |
| `MetricCard.CardMeaning` | main.py:57-72 | the colour is green iff good, red iff the series moved the wrong way, grey iff flat; the arrow is empty iff grey; the change is non-negative iff the trend is not down |
| `Narrative.NameMap` | pages/01_what_happened.py:83 | `name2metric`; stated by `NameMapKeys` and `NameMapKeepsLast` |
| `Narrative.NameMapKeys` | pages/01_what_happened.py:83 | the map has a key for exactly the names that occur |
| `Narrative.NameMapKeepsLast` | pages/01_what_happened.py:83 | a name maps to the last record carrying it |
| `Narrative.KeyOrder` | pages/01_what_happened.py:83-89 | the option list has no duplicates, every option is a key and every record's name is an option; options are in the order the names first occur, so the first record's name comes first |
| `Narrative.KeyOrderCoversKeys` | pages/01_what_happened.py:89 | the option list holds exactly the map's keys |
| `Narrative.SearchFrom` | pages/01_what_happened.py:90 | the generator inside `next(…, 0)`; stated by `DefaultIndexBounds` and `SearchFindsFirst` |
| `Narrative.DefaultIndex` | pages/01_what_happened.py:90 | the index is valid when there are options, and 0 otherwise |
| `Narrative.DefaultIndexBounds` | pages/01_what_happened.py:90 | the search from a position returns 0 or a valid position at or after it |
| `Narrative.SearchFindsFirst` | pages/01_what_happened.py:90 | the search from a position finds the first mention at or after it, and 0 when there is none |
| `Narrative.DefaultIndexIsFirstMention` | pages/01_what_happened.py:90 | the default index is the first option whose lower-cased name contains the lower-cased keyword, or 0 when none does |
| `Narrative.DefaultPick` | pages/01_what_happened.py:88-92 | the default pick exists exactly when there are metrics |
| `Narrative.DefaultPickFollowsFirstMention` | pages/01_what_happened.py:83-92 | when some metric name mentions the keyword, the picker starts on the last record carrying the first such name |
| `Narrative.DefaultPickWithoutMention` | pages/01_what_happened.py:83-92 | when no metric name mentions the keyword, the picker starts on the last record carrying the first record's name |
| `Narrative.JoinedWordCount` | pages/01_what_happened.py:152 | joining whitespace-free words with single spaces gives that many words |
| `Narrative.FillerCount` | pages/01_what_happened.py:153-154 | the filler sentence has 17 words |
| `Narrative.Pad` | pages/01_what_happened.py:155-156 | `k` rounds of `txt += " " + filler_sent`; stated by `PadWordCount` and `PadExtends` |
| `Narrative.PadWordCount` | pages/01_what_happened.py:155-156 | each filler appended adds its word count |
| `Narrative.PadExtends` | pages/01_what_happened.py:156 | padding only appends |
| `Narrative.LongParagraph` | pages/01_what_happened.py:150-157 | the result starts with the joined sentences and has at least `approx_words` words; it is the joined sentences themselves when they are long enough, and otherwise has fewer than `approx_words + 17` words; it is the joined sentences plus whole fillers |
| `Text.Contains` | fix_json.py:6-27 | Python's `in` on strings; stated by `ContainsTransitive` and used by every rule of the unit chain |
| `Text.ContainsTransitive` | fix_json.py:22-25 | an occurrence inside an occurrence is an occurrence |
| `Text.Lower` | fix_json.py:5 | lower-casing keeps the length and lowers each character |
| `Text.LowerIdempotent` | fix_json.py:5 | lower-casing twice is lower-casing once |
| `Text.Strip` | main.py:25 | `strip("/")`; stated by `StripShape` and `StripEnds` |
| `Text.StripShape` | main.py:25 | `strip("/")` yields a slice of the input, with only `/` removed before and after it |
| `Text.StripEnds` | main.py:25 | the stripped string is empty or neither starts nor ends with `/` |
| `Text.Split` | main.py:38 | `split("/")` gives at least one piece, no piece holds the separator, and joining the pieces restores the input |
| `Text.Join` | main.py:43 | `'/'.join(parts)`; stated by `Split` (joining the pieces restores the input) and `SplitJoin` |
| `Text.SplitJoin` | main.py:38-43 | splitting the join of separator-free pieces gives the pieces back |
| `Text.WordCountSpaced` | pages/01_what_happened.py:155-156 | the words of `a + " " + b` are those of `a` plus those of `b` |

## Left out

- File I/O and JSON (de)serialisation are not modelled. The tree is a Dafny datatype, and the driver's script lines that load and save it are not modelled.
- Streamlit, Plotly, HTML/CSS and Mermaid rendering are not modelled, and neither is `pages/02_what_next.py`. They hold no stateable logic.
- The distribution of `random.random` and `random.uniform` is not modelled. Draws are an input sequence of values in `[0, 1)`, and no probabilistic claim is made.
- Python's `round` on binary floats is not modelled. Rounding is half-even on exact reals, and the points are exact reals rather than floats.
- `metric_card` also rejects a series with non-numeric entries. In the model the series is typed as reals, so that check never fires.
- The formatting of `value_display` and `delta_str` is left out.
- The user's choice in the sidebar picker (`st.sidebar.selectbox`) is left out. `Narrative.DefaultPick` models the record the picker starts on.
- A `metrics` or `children` field is a list in the model, and a missing one is the empty list. A field that is present but not a list is not modelled. How the source treats one depends on the walk:
  - `process_tree` skips any non-list field, which matches the empty list (fix_json.py:56, 58).
  - `iter_metrics` raises when it iterates a `null` field (pages/01_what_happened.py:28-29, 31).
  - `build_radio_options` tests `children` for truth (main.py:27, 29). A `null` or other falsy `children` (`{}`, `""`, `0`, `false`) gives a leaf with the "• " icon and no recursion, as the empty list does. A truthy non-list is recursed into and fails: a number fails at the iteration (main.py:24), and a non-empty dict or string fails at `node['indicator']` (main.py:25).
  - `find_node_by_path` passes the field on unchanged (main.py:43). It fails when it iterates a `null` `children` (main.py:39).
- `Narrative.DefaultPick`: with no metrics at all the picker has no option and Python fails at `name2metric[choice]`; the model returns `None` there.
- `Navigation.FindNodeByPath`: Python raises `IndexError` on `nodes[0]` for an empty level; the model returns `None` there.
- `Narrative.FillerCount`: the filler sentence is represented as its 17 words joined by single spaces. The equality of that join with the literal sentence is not stated.
- `Narrative.LongParagraph`: the word count is a parameter; the default of 520 is not fixed.
- `Text.Lower`: only ASCII letters are lower-cased; Python's `str.lower` also maps non-ASCII letters.
- `Text.IsSpace`: whitespace is the ASCII and Latin-1 whitespace that `str.split()` recognises. Other Unicode spaces are not recognised.

=== FILE: base.dfy ===
/** The optional-value wrapper shared by the modules of this project. */
module Base {

  /** A value that may be absent. */
  datatype Option<+T> = None | Some(value: T)
}

=== FILE: indicator_tree.dfy ===
/**
 The delivery-health indicator tree: indicator nodes owning metric records
 and child nodes (a strict tree), with the two traversals every part of the
 dashboard relies on: pre-order over nodes and pre-order over metrics
 (`iter_metrics`).

 A record field that the stored JSON may omit is an `Option`; an omitted
 `metrics` or `children` list is the empty list, which is how every
 traversal here reads a missing one.
 */
module IndicatorTree {
  import opened Base

  /** A metric record: its name, the four generated fields, and the fields passed through untouched. */
  datatype Metric = Metric(
    name: string,
    unit: Option<string>,
    yAxisLabel: Option<string>,
    timeseries: Option<seq<real>>,
    value: Option<real>,
    description: Option<string>,
    target: Option<real>)

  /** An indicator node. */
  datatype Node = Node(
    indicator: string,
    description: Option<string>,
    dataSource: Option<string>,
    metrics: seq<Metric>,
    children: seq<Node>)

  /** Every node of a forest in pre-order: a node, then its subtree, then its later siblings. */
  function Preorder(nodes: seq<Node>): seq<Node>
    decreases nodes
  {
    if |nodes| == 0 then []
    else [nodes[0]] + Preorder(nodes[0].children) + Preorder(nodes[1..])
  }

  /** Pre-order distributes over a split of the forest. */
  lemma {:induction false} PreorderAppend(a: seq<Node>, b: seq<Node>)
    ensures Preorder(a + b) == Preorder(a) + Preorder(b)
    decreases a
  {
    if |a| == 0 {
      assert a + b == b;
    } else {
      assert (a + b)[1..] == a[1..] + b;
      PreorderAppend(a[1..], b);
    }
  }

  /** The subtree rooted at `n`, in pre-order. */
  ghost function Subtree(n: Node): seq<Node> {
    [n] + Preorder(n.children)
  }

  /** Number of nodes in a forest. */
  ghost function Size(nodes: seq<Node>): nat {
    |Preorder(nodes)|
  }

  /**
   Pre-order keeps siblings in order and each subtree contiguous: the subtree
   of `nodes[i]` starts, parent first, right after the subtrees of the
   earlier siblings.
   */
  lemma PreorderLayout(nodes: seq<Node>, i: nat)
    requires i < |nodes|
    ensures Preorder(nodes) == Preorder(nodes[..i]) + Subtree(nodes[i]) + Preorder(nodes[i + 1..])
  {
    var before, from, after := nodes[..i], nodes[i..], nodes[i + 1..];
    calc {
      Preorder(nodes);
      { assert nodes == before + from; }
      Preorder(before + from);
      { PreorderAppend(before, from); }
      Preorder(before) + Preorder(from);
      { assert from[0] == nodes[i] && from[1..] == after; }
      Preorder(before) + ([nodes[i]] + Preorder(nodes[i].children) + Preorder(after));
      Preorder(before) + Subtree(nodes[i]) + Preorder(after);
    }
  }

  /** The root `nodes[i]` sits in pre-order right after the subtrees of its earlier siblings. */
  lemma RootPosition(nodes: seq<Node>, i: nat)
    requires i < |nodes|
    ensures Size(nodes[..i]) < Size(nodes) && Preorder(nodes)[Size(nodes[..i])] == nodes[i]
  {
    PreorderLayout(nodes, i);
    var a, b := Preorder(nodes[..i]), Subtree(nodes[i]);
    assert b == [nodes[i]] + Preorder(nodes[i].children);
    assert (a + b)[|a|] == b[0] == nodes[i];
  }

  /** A forest's size: its first tree's root, that tree's descendants, and the later trees. */
  lemma SizeOfForest(nodes: seq<Node>)
    requires |nodes| > 0
    ensures Size(nodes) == 1 + Size(nodes[0].children) + Size(nodes[1..])
  {
  }

  /** `iter_metrics`: a node's own metrics, then those of its children's subtrees, then those of later siblings. */
  function IterMetrics(nodes: seq<Node>): seq<Metric>
    decreases nodes
  {
    if |nodes| == 0 then []
    else nodes[0].metrics + IterMetrics(nodes[0].children) + IterMetrics(nodes[1..])
  }

  /** The metric lists of a sequence of nodes, one after another. */
  ghost function ConcatMetrics(nodes: seq<Node>): seq<Metric>
  {
    if |nodes| == 0 then [] else nodes[0].metrics + ConcatMetrics(nodes[1..])
  }

  lemma {:induction false} ConcatMetricsAppend(a: seq<Node>, b: seq<Node>)
    ensures ConcatMetrics(a + b) == ConcatMetrics(a) + ConcatMetrics(b)
    decreases |a|
  {
    if |a| == 0 {
      assert a + b == b;
    } else {
      assert (a + b)[1..] == a[1..] + b;
      ConcatMetricsAppend(a[1..], b);
    }
  }

  /** `iter_metrics` yields each node's metric list once, node by node in pre-order. */
  lemma {:induction false} IterMetricsIsPreorder(nodes: seq<Node>)
    ensures IterMetrics(nodes) == ConcatMetrics(Preorder(nodes))
    decreases nodes
  {
    if |nodes| > 0 {
      var n := nodes[0];
      IterMetricsIsPreorder(n.children);
      IterMetricsIsPreorder(nodes[1..]);
      ConcatMetricsAppend([n], Preorder(n.children));
      ConcatMetricsAppend([n] + Preorder(n.children), Preorder(nodes[1..]));
      assert ConcatMetrics([n]) == n.metrics;
    }
  }

  /** Total number of metric records in a forest: the sum of its nodes' metric-list lengths. */
  ghost function MetricCount(nodes: seq<Node>): nat
    decreases nodes
  {
    if |nodes| == 0 then 0
    else |nodes[0].metrics| + MetricCount(nodes[0].children) + MetricCount(nodes[1..])
  }

  /** The sum of the metric-list lengths of a sequence of nodes. */
  ghost function MetricSum(nodes: seq<Node>): nat
  {
    if |nodes| == 0 then 0 else |nodes[0].metrics| + MetricSum(nodes[1..])
  }

  lemma {:induction false} ConcatMetricsLength(nodes: seq<Node>)
    ensures |ConcatMetrics(nodes)| == MetricSum(nodes)
  {
    if |nodes| > 0 {
      ConcatMetricsLength(nodes[1..]);
    }
  }

  /**
   `iter_metrics` yields exactly as many records as the forest holds: the
   sum of the metric-list lengths over all its nodes.
   */
  lemma {:induction false} IterMetricsCount(nodes: seq<Node>)
    ensures |IterMetrics(nodes)| == MetricCount(nodes)
    ensures |IterMetrics(nodes)| == MetricSum(Preorder(nodes))
    decreases nodes
  {
    IterMetricsIsPreorder(nodes);
    ConcatMetricsLength(Preorder(nodes));
    if |nodes| > 0 {
      IterMetricsCount(nodes[0].children);
      IterMetricsCount(nodes[1..]);
    }
  }

  /** `m'` is `m` up to the four generated fields: same name, description and target. */
  ghost predicate KeepsRecord(m: Metric, m': Metric) {
    m'.name == m.name && m'.description == m.description && m'.target == m.target
  }

  /**
   `n'` is `n` up to the generated fields of its metrics: same indicator,
   description and data source, the same number of metrics each kept as a
   record, and children of the same shape, all recursively.
   */
  ghost predicate SameShape(n: Node, n': Node)
    decreases n
  {
    && n'.indicator == n.indicator && n'.description == n.description && n'.dataSource == n.dataSource
    && |n'.metrics| == |n.metrics|
    && (forall i :: 0 <= i < |n.metrics| ==> KeepsRecord(n.metrics[i], n'.metrics[i]))
    && |n'.children| == |n.children|
    && (forall i :: 0 <= i < |n.children| ==> SameShape(n.children[i], n'.children[i]))
  }

  /** Shape is kept along a chain of rewrites. */
  lemma {:induction false} SameShapeTransitive(a: Node, b: Node, c: Node)
    requires SameShape(a, b) && SameShape(b, c)
    ensures SameShape(a, c)
    decreases a
  {
    forall i | 0 <= i < |a.children| ensures SameShape(a.children[i], c.children[i]) {
      SameShapeTransitive(a.children[i], b.children[i], c.children[i]);
    }
  }

  /** Trees of the same shape hold the same number of metric records. */
  lemma {:induction false} SameShapeCount(ns: seq<Node>, ns': seq<Node>)
    requires |ns| == |ns'| && forall i :: 0 <= i < |ns| ==> SameShape(ns[i], ns'[i])
    ensures MetricCount(ns') == MetricCount(ns)
    decreases ns
  {
    if |ns| > 0 {
      SameShapeCount(ns[0].children, ns'[0].children);
      SameShapeCount(ns[1..], ns'[1..]);
    }
  }
}

=== FILE: metric_card.dfy ===
/**
 The trend logic of a metric card: the direction of a series from its first
 to its last value, whether that direction is good for the metric, and the
 arrow and colour the card shows for it. A card for a metric without
 series values shows a warning instead and computes no trend.
 */
module MetricCard {
  import opened Base
  import opened IndicatorTree

  /** Direction of a series from its first to its last value. */
  datatype Trend = Up | Down | Neutral

  /** What the card shows about the series' direction. */
  datatype TrendView = TrendView(trend: Trend, delta: real, isGood: bool, arrow: string, arrowColor: string)

  /** Colour of a move in the good direction. */
  const Green := "#14d964"
  /** Colour of a move in the bad direction. */
  const Red := "#e4572e"
  /** Colour of no move. */
  const Grey := "#aaa"

  /** Change from the first to the last value. */
  function Delta(values: seq<real>): real
    requires |values| > 0
  {
    values[|values| - 1] - values[0]
  }

  /** `trend`: "up" when the last value exceeds the first, "down" when it is below, "neutral" otherwise. */
  function TrendOf(values: seq<real>): Trend
    requires |values| > 0
  {
    if values[|values| - 1] > values[0] then Up
    else if values[|values| - 1] < values[0] then Down
    else Neutral
  }

  /** `is_good`: a rise for a higher-is-better metric, a fall for a lower-is-better one. */
  predicate IsGood(trend: Trend, higherIsBetter: bool) {
    (trend == Up && higherIsBetter) || (trend == Down && !higherIsBetter)
  }

  /** `arrow`: up and down triangles, nothing for a flat series. */
  function Arrow(trend: Trend): string {
    match trend
    case Up => "▲"
    case Down => "▼"
    case Neutral => ""
  }

  /** `arrow_color`: green when good, red for a move the wrong way, grey for no move. */
  function ArrowColor(trend: Trend, higherIsBetter: bool): string {
    if IsGood(trend, higherIsBetter) then Green
    else if trend != Neutral then Red
    else Grey
  }

  /**
   The trend part of `metric_card`: `None` when the metric has no series or
   an empty one, where the card warns and stops.
   */
  function CardTrend(m: Metric, higherIsBetter: bool): (r: Option<TrendView>)
    ensures r.Some? <==> m.timeseries.Some? && |m.timeseries.value| > 0
  {
    if m.timeseries.None? || |m.timeseries.value| == 0 then None
    else
      var values := m.timeseries.value;
      var trend := TrendOf(values);
      Some(TrendView(trend, Delta(values), IsGood(trend, higherIsBetter), Arrow(trend), ArrowColor(trend, higherIsBetter)))
  }

  /** The trend is the sign of the change from first to last value. */
  lemma TrendIsSignOfDelta(values: seq<real>)
    requires |values| > 0
    ensures TrendOf(values) == Up <==> Delta(values) > 0.0
    ensures TrendOf(values) == Down <==> Delta(values) < 0.0
    ensures TrendOf(values) == Neutral <==> Delta(values) == 0.0
  {
  }

  /** Only the end points count: series with the same first and last values share a trend. */
  lemma TrendDependsOnEnds(a: seq<real>, b: seq<real>)
    requires |a| > 0 && |b| > 0
    requires a[0] == b[0] && a[|a| - 1] == b[|b| - 1]
    ensures TrendOf(a) == TrendOf(b)
  {
  }

  /** The opposite direction. */
  ghost function Opposite(t: Trend): Trend {
    match t
    case Up => Down
    case Down => Up
    case Neutral => Neutral
  }

  /** The series read backwards. */
  ghost function Reverse(values: seq<real>): (r: seq<real>)
    ensures |r| == |values|
    ensures forall k :: 0 <= k < |values| ==> r[k] == values[|values| - 1 - k]
  {
    if |values| == 0 then [] else Reverse(values[1..]) + [values[0]]
  }

  /** Reading the series backwards reverses its trend. */
  lemma ReversalFlipsTrend(values: seq<real>)
    requires |values| > 0
    ensures TrendOf(Reverse(values)) == Opposite(TrendOf(values))
  {
  }

  /** A flat series is never good, whichever direction is better. */
  lemma NeutralNeverGood(higherIsBetter: bool)
    ensures !IsGood(Neutral, higherIsBetter)
  {
  }

  /** For a moving series, swapping which direction is better swaps good and bad. */
  lemma PreferenceFlipsGoodness(trend: Trend, higherIsBetter: bool)
    requires trend != Neutral
    ensures IsGood(trend, !higherIsBetter) <==> !IsGood(trend, higherIsBetter)
  {
  }

  /** Goodness is the same whether read from the trend or from the sign of the change. */
  lemma GoodnessFromDelta(values: seq<real>, higherIsBetter: bool)
    requires |values| > 0
    ensures IsGood(TrendOf(values), higherIsBetter) <==>
      (if higherIsBetter then Delta(values) > 0.0 else Delta(values) < 0.0)
  {
  }

  /**
   The card's view of a non-empty series: its colour is green exactly when
   the move is good, red exactly when the series moved the wrong way, grey
   exactly when it did not move; the arrow is empty exactly when grey; and
   the change carries a `+` sign (`delta >= 0`) exactly when the trend is not down.
   */
  lemma CardMeaning(m: Metric, higherIsBetter: bool)
    requires m.timeseries.Some? && |m.timeseries.value| > 0
    ensures var v := CardTrend(m, higherIsBetter).value; var values := m.timeseries.value;
      && (v.arrowColor == Green <==> IsGood(TrendOf(values), higherIsBetter))
      && (v.arrowColor == Red <==> Delta(values) != 0.0 && !IsGood(TrendOf(values), higherIsBetter))
      && (v.arrowColor == Grey <==> values[0] == values[|values| - 1])
      && (v.arrow == "" <==> v.arrowColor == Grey)
      && (v.delta >= 0.0 <==> v.trend != Down)
  {
    var values := m.timeseries.value;
    TrendIsSignOfDelta(values);
  }
}

=== FILE: narrative.dfy ===
/**
 Helpers of the "what happened" narrative page: the name-to-metric map, the
 keyword rule that chooses the metric a picker starts on, and the padding
 of a timeline paragraph to a minimum word count.
 */
module Narrative {
  import opened Base
  import opened Text
  import opened IndicatorTree

  /**
   `name2metric`: metric records keyed by name, built in iteration order, so
   a later record with the same name replaces an earlier one.
   */
  function NameMap(ms: seq<Metric>): map<string, Metric>
  {
    if |ms| == 0 then map[] else NameMap(ms[..|ms| - 1])[ms[|ms| - 1].name := ms[|ms| - 1]]
  }

  /** The names of the records, in iteration order. */
  ghost function Names(ms: seq<Metric>): (r: seq<string>)
    ensures |r| == |ms| && forall k :: 0 <= k < |ms| ==> r[k] == ms[k].name
  {
    seq(|ms|, k requires 0 <= k < |ms| => ms[k].name)
  }

  /** The map has an entry for exactly the names that occur. */
  lemma {:induction false} NameMapKeys(ms: seq<Metric>)
    ensures forall x :: x in NameMap(ms) <==> x in Names(ms)
  {
    if |ms| > 0 {
      NameMapKeys(ms[..|ms| - 1]);
      assert Names(ms) == Names(ms[..|ms| - 1]) + [ms[|ms| - 1].name];
    }
  }

  /** The entry for a name is the last record carrying it. */
  lemma {:induction false} NameMapKeepsLast(ms: seq<Metric>, j: nat)
    requires j < |ms| && forall k :: j < k < |ms| ==> ms[k].name != ms[j].name
    ensures ms[j].name in NameMap(ms) && NameMap(ms)[ms[j].name] == ms[j]
  {
    if j < |ms| - 1 {
      var init := ms[..|ms| - 1];
      assert init[j] == ms[j];
      assert ms[|ms| - 1].name != ms[j].name;
      NameMapKeepsLast(init, j);
    }
  }

  /** The position of the first record named `name` at or after `from`, or `|ms|` when there is none. */
  ghost function FirstOccurrenceFrom(ms: seq<Metric>, name: string, from: nat): (k: nat)
    requires from <= |ms|
    ensures from <= k <= |ms|
    ensures k < |ms| ==> ms[k].name == name
    ensures forall j :: from <= j < k ==> ms[j].name != name
    decreases |ms| - from
  {
    if from == |ms| then |ms|
    else if ms[from].name == name then from
    else FirstOccurrenceFrom(ms, name, from + 1)
  }

  /** The position of the first record named `name`, or `|ms|` when there is none. */
  ghost function FirstOccurrence(ms: seq<Metric>, name: string): (k: nat)
    ensures k <= |ms|
    ensures k < |ms| ==> ms[k].name == name
    ensures forall j :: 0 <= j < k ==> ms[j].name != name
  {
    FirstOccurrenceFrom(ms, name, 0)
  }

  /** A name first met within a prefix is first met at the same place in the whole sequence. */
  lemma FirstOccurrencePrefix(ms: seq<Metric>, init: seq<Metric>, name: string)
    requires |init| <= |ms| && init == ms[..|init|]
    requires FirstOccurrence(init, name) < |init|
    ensures FirstOccurrence(ms, name) == FirstOccurrence(init, name)
  {
    var p := FirstOccurrence(init, name);
    assert ms[p] == init[p];
    assert forall j :: 0 <= j < p ==> ms[j] == init[j];
  }

  /**
   `list(name2metric.keys())`: each distinct name once, in the order of its
   first occurrence, which is the order a Python dict keeps its keys in.
   Every record's name is listed, every listed name occurs, a name met
   earlier is listed earlier, and the first record's name comes first.
   */
  function KeyOrder(ms: seq<Metric>): (r: seq<string>)
    ensures forall i, j :: 0 <= i < j < |r| ==> r[i] != r[j]
    ensures forall k :: 0 <= k < |r| ==> r[k] in NameMap(ms)
    ensures forall k :: 0 <= k < |ms| ==> ms[k].name in r
    ensures forall k :: 0 <= k < |r| ==> FirstOccurrence(ms, r[k]) < |ms|
    ensures forall i, j :: 0 <= i < j < |r| ==> FirstOccurrence(ms, r[i]) < FirstOccurrence(ms, r[j])
    ensures |ms| > 0 ==> |r| > 0 && r[0] == ms[0].name
  {
    if |ms| == 0 then []
    else
      var init := ms[..|ms| - 1];
      var ks := KeyOrder(init);
      var r := if ms[|ms| - 1].name in ks then ks else ks + [ms[|ms| - 1].name];
      KeyOrderStepNames(ms, init, ks, r);
      KeyOrderStepKeys(ms, init, ks, r);
      if ms[|ms| - 1].name in ks then
        KeyOrderStepOld(ms, init, ks);
        FirstNameFirst(ms, r);
        r
      else
        NewNameComesLast(ms, init, ks);
        KeyOrderStepNew(ms, init, ks, r);
        FirstNameFirst(ms, r);
        r
  }

  /**
   One step of `KeyOrder` for a record whose name was met before: the listed
   names keep their first occurrences, and so their order.
   */
  lemma KeyOrderStepOld(ms: seq<Metric>, init: seq<Metric>, ks: seq<string>)
    requires |ms| > 0 && init == ms[..|ms| - 1]
    requires forall k :: 0 <= k < |ks| ==> FirstOccurrence(init, ks[k]) < |init|
    requires forall i, j :: 0 <= i < j < |ks| ==> FirstOccurrence(init, ks[i]) < FirstOccurrence(init, ks[j])
    ensures forall k :: 0 <= k < |ks| ==> FirstOccurrence(ms, ks[k]) < |ms|
    ensures forall i, j :: 0 <= i < j < |ks| ==> FirstOccurrence(ms, ks[i]) < FirstOccurrence(ms, ks[j])
  {
    KeepsFirstOccurrences(ms, init, ks);
  }

  /**
   One step of `KeyOrder` for a record with a new name: the name is listed
   last, after every name met before it.
   */
  lemma KeyOrderStepNew(ms: seq<Metric>, init: seq<Metric>, ks: seq<string>, r: seq<string>)
    requires |ms| > 0 && init == ms[..|ms| - 1] && r == ks + [ms[|ms| - 1].name]
    requires FirstOccurrence(ms, ms[|ms| - 1].name) == |init|
    requires forall k :: 0 <= k < |ks| ==> FirstOccurrence(init, ks[k]) < |init|
    requires forall i, j :: 0 <= i < j < |ks| ==> FirstOccurrence(init, ks[i]) < FirstOccurrence(init, ks[j])
    ensures forall k :: 0 <= k < |r| ==> FirstOccurrence(ms, r[k]) < |ms|
    ensures forall i, j :: 0 <= i < j < |r| ==> FirstOccurrence(ms, r[i]) < FirstOccurrence(ms, r[j])
  {
    KeepsFirstOccurrences(ms, init, ks);
    assert forall k :: 0 <= k < |ks| ==> r[k] == ks[k];
  }

  /** Names listed in first-occurrence order start with the first record's name. */
  lemma FirstNameFirst(ms: seq<Metric>, r: seq<string>)
    requires |ms| > 0 && ms[0].name in r
    requires forall i, j :: 0 <= i < j < |r| ==> FirstOccurrence(ms, r[i]) < FirstOccurrence(ms, r[j])
    ensures r[0] == ms[0].name
  {
    assert FirstOccurrence(ms, ms[0].name) == 0;
  }

  /** After one more record every listed name is still a key of the map. */
  lemma KeyOrderStepKeys(ms: seq<Metric>, init: seq<Metric>, ks: seq<string>, r: seq<string>)
    requires |ms| > 0 && init == ms[..|ms| - 1]
    requires r == if ms[|ms| - 1].name in ks then ks else ks + [ms[|ms| - 1].name]
    requires forall k :: 0 <= k < |ks| ==> ks[k] in NameMap(init)
    ensures forall k :: 0 <= k < |r| ==> r[k] in NameMap(ms)
  {
    assert NameMap(ms) == NameMap(init)[ms[|ms| - 1].name := ms[|ms| - 1]];
  }

  /** After one more record every name met so far is still listed, and so is the new one. */
  lemma KeyOrderStepNames(ms: seq<Metric>, init: seq<Metric>, ks: seq<string>, r: seq<string>)
    requires |ms| > 0 && init == ms[..|ms| - 1]
    requires r == if ms[|ms| - 1].name in ks then ks else ks + [ms[|ms| - 1].name]
    requires forall k :: 0 <= k < |init| ==> init[k].name in ks
    ensures forall k :: 0 <= k < |ms| ==> ms[k].name in r
  {
    forall k | 0 <= k < |ms| ensures ms[k].name in r {
      if k < |init| {
        assert ms[k] == init[k];
      }
    }
  }

  /** Names first met in `init` are first met at the same place once a record is appended. */
  lemma KeepsFirstOccurrences(ms: seq<Metric>, init: seq<Metric>, ks: seq<string>)
    requires |ms| > 0 && init == ms[..|ms| - 1]
    requires forall k :: 0 <= k < |ks| ==> FirstOccurrence(init, ks[k]) < |init|
    ensures forall k :: 0 <= k < |ks| ==> FirstOccurrence(ms, ks[k]) == FirstOccurrence(init, ks[k])
  {
    forall k | 0 <= k < |ks| ensures FirstOccurrence(ms, ks[k]) == FirstOccurrence(init, ks[k]) {
      FirstOccurrencePrefix(ms, init, ks[k]);
    }
  }

  /** A name not met in `init` is first met at the appended record. */
  lemma NewNameComesLast(ms: seq<Metric>, init: seq<Metric>, ks: seq<string>)
    requires |ms| > 0 && init == ms[..|ms| - 1]
    requires forall k :: 0 <= k < |init| ==> init[k].name in ks
    requires ms[|ms| - 1].name !in ks
    ensures FirstOccurrence(ms, ms[|ms| - 1].name) == |init|
  {
    forall k | 0 <= k < |init| ensures ms[k].name in ks {
      assert ms[k] == init[k];
    }
  }

  /** The key order lists exactly the map's keys. */
  lemma {:induction false} KeyOrderCoversKeys(ms: seq<Metric>)
    ensures forall x :: x in NameMap(ms) <==> x in KeyOrder(ms)
  {
    if |ms| > 0 {
      KeyOrderCoversKeys(ms[..|ms| - 1]);
    }
  }

  /** Whether the lower-cased name contains the lower-cased keyword. */
  predicate MentionsKeyword(name: string, kw: string) {
    Contains(Lower(name), Lower(kw))
  }

  /** The first position at or after `from` whose name mentions the keyword, or 0 when none does. */
  function SearchFrom(opts: seq<string>, kw: string, from: nat): (r: nat)
    requires from <= |opts|
    decreases |opts| - from
  {
    if from == |opts| then 0
    else if MentionsKeyword(opts[from], kw) then from
    else SearchFrom(opts, kw, from + 1)
  }

  /** The default index in `pick`: the first option mentioning the keyword, else 0. */
  function DefaultIndex(opts: seq<string>, kw: string): (r: nat)
    ensures |opts| > 0 ==> r < |opts|
    ensures |opts| == 0 ==> r == 0
  {
    DefaultIndexBounds(opts, kw, 0);
    SearchFrom(opts, kw, 0)
  }

  /** The search from `from` stays in bounds. */
  lemma {:induction false} DefaultIndexBounds(opts: seq<string>, kw: string, from: nat)
    requires from <= |opts|
    ensures SearchFrom(opts, kw, from) == 0 || from <= SearchFrom(opts, kw, from) < |opts|
    decreases |opts| - from
  {
    if from < |opts| && !MentionsKeyword(opts[from], kw) {
      DefaultIndexBounds(opts, kw, from + 1);
    }
  }

  /** The search from `from` finds the first mention at or after `from`, and 0 when there is none. */
  lemma {:induction false} SearchFindsFirst(opts: seq<string>, kw: string, from: nat)
    requires from <= |opts|
    ensures var r := SearchFrom(opts, kw, from);
      if exists i :: from <= i < |opts| && MentionsKeyword(opts[i], kw) then
        from <= r < |opts| && MentionsKeyword(opts[r], kw) &&
        forall i :: from <= i < r ==> !MentionsKeyword(opts[i], kw)
      else r == 0
    decreases |opts| - from
  {
    if from < |opts| && !MentionsKeyword(opts[from], kw) {
      SearchFindsFirst(opts, kw, from + 1);
    }
  }

  /**
   The default index is the first option whose lower-cased name contains the
   lower-cased keyword; when no option does it is 0.
   */
  lemma DefaultIndexIsFirstMention(opts: seq<string>, kw: string)
    ensures var r := DefaultIndex(opts, kw);
      if exists i :: 0 <= i < |opts| && MentionsKeyword(opts[i], kw) then
        MentionsKeyword(opts[r], kw) && forall i :: 0 <= i < r ==> !MentionsKeyword(opts[i], kw)
      else r == 0
  {
    SearchFindsFirst(opts, kw, 0);
  }

  /**
   The metric a picker starts on: the record the map keeps for the key at
   the default index; `None` when there are no metrics at all.
   */
  function DefaultPick(ms: seq<Metric>, kw: string): (r: Option<Metric>)
    ensures r.Some? <==> |ms| > 0
  {
    var opts := KeyOrder(ms);
    KeyOrderCoversKeys(ms);
    NameMapKeys(ms);
    assert |ms| > 0 ==> Names(ms)[0] in NameMap(ms);
    if |opts| == 0 then None else Some(NameMap(ms)[opts[DefaultIndex(opts, kw)]])
  }

  /** Every listed name belongs to some record. */
  lemma KeyOrderNamesOccur(ms: seq<Metric>, i: nat)
    requires i < |KeyOrder(ms)|
    ensures var f := FirstOccurrence(ms, KeyOrder(ms)[i]); f < |ms| && ms[f].name == KeyOrder(ms)[i]
  {
  }

  /**
   When some metric name mentions the keyword, the picker starts on the last
   record carrying the first such name (`p` is the first record whose name
   mentions the keyword, `q` the last record with that name).
   */
  lemma DefaultPickFollowsFirstMention(ms: seq<Metric>, kw: string, p: nat, q: nat)
    requires p < |ms| && MentionsKeyword(ms[p].name, kw)
    requires forall i :: 0 <= i < p ==> !MentionsKeyword(ms[i].name, kw)
    requires q < |ms| && ms[q].name == ms[p].name
    requires forall k :: q < k < |ms| ==> ms[k].name != ms[q].name
    ensures DefaultPick(ms, kw) == Some(ms[q])
  {
    var opts, name := KeyOrder(ms), ms[p].name;
    assert name in opts;
    var j :| 0 <= j < |opts| && opts[j] == name;
    assert FirstOccurrence(ms, name) == p;
    forall i | 0 <= i < j ensures !MentionsKeyword(opts[i], kw) {
      KeyOrderNamesOccur(ms, i);
    }
    DefaultIndexIsFirstMention(opts, kw);
    var d := DefaultIndex(opts, kw);
    assert d == j;
    NameMapKeepsLast(ms, q);
  }

  /**
   When no metric name mentions the keyword, the picker starts on the last
   record carrying the first record's name (`q`).
   */
  lemma DefaultPickWithoutMention(ms: seq<Metric>, kw: string, q: nat)
    requires forall i :: 0 <= i < |ms| ==> !MentionsKeyword(ms[i].name, kw)
    requires q < |ms| && ms[q].name == ms[0].name
    requires forall k :: q < k < |ms| ==> ms[k].name != ms[q].name
    ensures DefaultPick(ms, kw) == Some(ms[q])
  {
    var opts := KeyOrder(ms);
    forall i | 0 <= i < |opts| ensures !MentionsKeyword(opts[i], kw) {
      KeyOrderNamesOccur(ms, i);
    }
    DefaultIndexIsFirstMention(opts, kw);
    NameMapKeepsLast(ms, q);
  }

  /** The words of the filler sentence, which every word-splitting rule keeps apart. */
  const FillerWords: seq<string> := [
    "The", "quantitative", "trend", "was", "unmistakable", "and", "required", "no", "subjective",
    "interpretation;", "each", "data", "point", "reinforced", "the", "previous", "one."]

  /** The neutral sentence `long_paragraph` pads with. */
  const Filler: string := Join(FillerWords, ' ')

  /** Number of words the filler sentence adds. */
  const FillerWordCount := 17

  /** A non-empty piece of text without whitespace. */
  ghost predicate IsWord(w: string) {
    |w| > 0 && forall j :: 0 <= j < |w| ==> !IsSpace(w[j])
  }

  /** Joining words with single spaces gives text with exactly that many words. */
  lemma {:induction false} JoinedWordCount(ws: seq<string>)
    requires |ws| >= 1 && forall k :: 0 <= k < |ws| ==> IsWord(ws[k])
    ensures WordCount(Join(ws, ' ')) == |ws|
    decreases |ws|
  {
    OneWord(ws[0]);
    if |ws| > 1 {
      JoinedWordCount(ws[1..]);
      assert Join(ws, ' ') == ws[0] + " " + Join(ws[1..], ' ');
      WordCountSpaced(ws[0], Join(ws[1..], ' '));
    }
  }

  /** The filler sentence has 17 words. */
  lemma FillerCount()
    ensures WordCount(Filler) == FillerWordCount
  {
    assert forall k :: 0 <= k < |FillerWords| ==> IsWord(FillerWords[k]);
    JoinedWordCount(FillerWords);
  }

  /** `s` followed by `k` copies of `filler`, each after a space. */
  function Pad(s: string, filler: string, k: nat): string {
    if k == 0 then s else Pad(s, filler, k - 1) + " " + filler
  }

  /** Each copy of the filler adds its words. */
  lemma {:induction false} PadWordCount(s: string, filler: string, k: nat)
    ensures WordCount(Pad(s, filler, k)) == WordCount(s) + k * WordCount(filler)
  {
    if k > 0 {
      PadWordCount(s, filler, k - 1);
      WordCountSpaced(Pad(s, filler, k - 1), filler);
    }
  }

  /** Padding only appends. */
  lemma {:induction false} PadExtends(s: string, filler: string, k: nat)
    ensures IsPrefix(s, Pad(s, filler, k))
  {
    if k > 0 {
      PadExtends(s, filler, k - 1);
      assert Pad(s, filler, k)[..|Pad(s, filler, k - 1)|] == Pad(s, filler, k - 1);
    }
  }

  /**
   `long_paragraph(*sentences, approx_words)`: the sentences joined by
   spaces, then fillers appended one at a time while the text has fewer than
   `approx_words` words. The result starts with the joined sentences and
   has at least `approx_words` words; it is the joined sentences themselves
   when they are long enough, and otherwise stops at the first filler that
   reaches the count, so it has fewer than `approx_words + 17` words.
   */
  method LongParagraph(sentences: seq<string>, approxWords: int) returns (txt: string)
    ensures IsPrefix(Join(sentences, ' '), txt)
    ensures WordCount(txt) >= approxWords
    ensures WordCount(Join(sentences, ' ')) >= approxWords ==> txt == Join(sentences, ' ')
    ensures WordCount(Join(sentences, ' ')) < approxWords ==> WordCount(txt) < approxWords + FillerWordCount
    ensures exists k: nat :: txt == Pad(Join(sentences, ' '), Filler, k)
  {
    var joined := Join(sentences, ' ');
    txt := joined;
    var k: nat := 0;
    FillerCount();
    while WordCount(txt) < approxWords
      invariant txt == Pad(joined, Filler, k)
      invariant WordCount(txt) == WordCount(joined) + k * FillerWordCount
      invariant k > 0 ==> WordCount(txt) < approxWords + FillerWordCount
      decreases approxWords - WordCount(txt)
    {
      WordCountSpaced(txt, Filler);
      txt := txt + " " + Filler;
      k := k + 1;
    }
    PadExtends(joined, Filler, k);
  }
}

=== FILE: navigation.dfy ===
/**
 Navigation over the indicator tree: the flattened `(path, label)` option
 list of the sidebar (`build_radio_options`) and the lookup of a node by its
 slash-separated path (`find_node_by_path`).

 A path is the `/`-join of the indicator names from a root down to a node.
 The lookup walks the path segment by segment, taking at each level the
 first sibling whose indicator equals the segment, and falls back to the
 first node of the level when no sibling matches. Python raises
 `IndexError` when that level is empty; here the lookup yields `None`.
 */
module Navigation {
  import opened Base
  import opened Text
  import opened IndicatorTree

  /** One sidebar entry: the path handed back on selection and the caption shown. */
  datatype RadioOption = RadioOption(path: string, caption: string)

  /** `s` written `k` times. */
  function Repeat(s: string, k: nat): string {
    if k == 0 then "" else s + Repeat(s, k - 1)
  }

  /** The label prefix of a node `level` steps below a root: `4 * level` non-breaking spaces. */
  function Indent(level: nat): string {
    Repeat("&nbsp;", 4 * level)
  }

  /** The triangle marks a node with children, the bullet a leaf. */
  function Icon(n: Node): string {
    if |n.children| > 0 then "▶ " else "• "
  }

  /** A node's path from its parent's path: joined with `/`, then stripped of `/` at both ends. */
  function NodePath(parentPath: string, name: string): string {
    Strip(parentPath + "/" + name, '/')
  }

  /** `build_radio_options(nodes, parent_path, level)`: every node gets an entry, in pre-order. */
  function BuildRadioOptions(nodes: seq<Node>, parentPath: string, level: nat): (r: seq<RadioOption>)
    ensures |r| == Size(nodes)
    decreases nodes
  {
    if |nodes| == 0 then []
    else
      var n := nodes[0];
      var path := NodePath(parentPath, n.indicator);
      var entry := RadioOption(path, Indent(level) + Icon(n) + n.indicator);
      var below := if |n.children| > 0 then BuildRadioOptions(n.children, path, level + 1) else [];
      SizeOfForest(nodes);
      [entry] + below + BuildRadioOptions(nodes[1..], parentPath, level)
  }

  /** Where a node sits: the indicator names from the root down to it, and its depth. */
  datatype Placement = Placement(names: seq<string>, level: nat, node: Node)

  /**
   The placement of every node of a forest whose roots sit below
   `ancestors` at depth `level`, in pre-order.
   */
  ghost function Placements(nodes: seq<Node>, ancestors: seq<string>, level: nat): (r: seq<Placement>)
    ensures |r| == Size(nodes)
    decreases nodes
  {
    if |nodes| == 0 then []
    else
      var n := nodes[0];
      var names := ancestors + [n.indicator];
      SizeOfForest(nodes);
      [Placement(names, level, n)] + Placements(n.children, names, level + 1) + Placements(nodes[1..], ancestors, level)
  }

  /** The entry a placement calls for: its names joined by `/`, indented by its depth, with the node's icon. */
  ghost function Render(p: Placement): RadioOption {
    RadioOption(Join(p.names, '/'), Indent(p.level) + Icon(p.node) + p.node.indicator)
  }

  /** `Render` applied to each placement. */
  ghost function RenderAll(ps: seq<Placement>): (r: seq<RadioOption>)
    ensures |r| == |ps| && forall i :: 0 <= i < |ps| ==> r[i] == Render(ps[i])
  {
    if |ps| == 0 then [] else [Render(ps[0])] + RenderAll(ps[1..])
  }

  /**
   A name whose path survives `strip("/")` intact: non-empty and neither
   starting nor ending with `/` (a `/` inside, as in "CI/CD", is fine).
   */
  ghost predicate PathSegment(name: string) {
    |name| > 0 && name[0] != '/' && name[|name| - 1] != '/'
  }

  /** Every name in the list keeps its `/` boundaries. */
  ghost predicate AllPathSegments(names: seq<string>) {
    forall k :: 0 <= k < |names| ==> PathSegment(names[k])
  }

  /** Every indicator of the forest keeps its `/` boundaries. */
  ghost predicate PathSegmentForest(nodes: seq<Node>)
    decreases nodes
  {
    |nodes| == 0 ||
    (PathSegment(nodes[0].indicator) && PathSegmentForest(nodes[0].children) && PathSegmentForest(nodes[1..]))
  }

  /** An indicator name that can stand as a path segment: non-empty and free of `/`. */
  ghost predicate WellNamed(name: string) {
    |name| > 0 && forall j :: 0 <= j < |name| ==> name[j] != '/'
  }

  /** Every name in the list can stand as a path segment. */
  ghost predicate AllWellNamed(names: seq<string>) {
    forall k :: 0 <= k < |names| ==> WellNamed(names[k])
  }

  /** Every indicator of the forest can stand as a path segment. */
  ghost predicate WellNamedForest(nodes: seq<Node>)
    decreases nodes
  {
    |nodes| == 0 ||
    (WellNamed(nodes[0].indicator) && WellNamedForest(nodes[0].children) && WellNamedForest(nodes[1..]))
  }

  /** A forest free of `/` in its names keeps the `/` boundaries of every name. */
  lemma {:induction false} WellNamedForestSegments(nodes: seq<Node>)
    requires WellNamedForest(nodes)
    ensures PathSegmentForest(nodes)
    decreases nodes
  {
    if |nodes| > 0 {
      WellNamedForestSegments(nodes[0].children);
      WellNamedForestSegments(nodes[1..]);
    }
  }

  /** At every level of the forest, no two siblings share an indicator. */
  ghost predicate UniqueSiblings(nodes: seq<Node>)
    decreases nodes
  {
    |nodes| == 0 ||
    (&& (forall j :: 1 <= j < |nodes| ==> nodes[j].indicator != nodes[0].indicator)
     && UniqueSiblings(nodes[0].children)
     && UniqueSiblings(nodes[1..]))
  }

  /** Joining one more non-empty name extends the join by a separator and the name. */
  lemma {:induction false} JoinSnoc(names: seq<string>, name: string)
    requires |names| >= 1
    ensures Join(names + [name], '/') == Join(names, '/') + "/" + name
    decreases |names|
  {
    if |names| > 1 {
      assert (names + [name])[1..] == names[1..] + [name];
      JoinSnoc(names[1..], name);
    }
  }

  /** A join of names that keep their `/` boundaries is non-empty and neither starts nor ends with `/`. */
  lemma {:induction false} JoinEnds(names: seq<string>)
    requires |names| >= 1 && AllPathSegments(names)
    ensures var s := Join(names, '/'); |s| > 0 && s[0] == names[0][0] != '/' && s[|s| - 1] != '/'
    decreases |names|
  {
    if |names| > 1 {
      JoinEnds(names[1..]);
    }
  }

  /** The path `build_radio_options` computes for a child is the join of the names one level longer. */
  lemma NodePathExtends(names: seq<string>, name: string)
    requires AllPathSegments(names) && PathSegment(name)
    ensures NodePath(Join(names, '/'), name) == Join(names + [name], '/')
  {
    if |names| == 0 {
      RootPath(name);
      assert names + [name] == [name];
    } else {
      JoinSnoc(names, name);
      assert AllPathSegments(names + [name]);
      JoinEnds(names + [name]);
      StripUnchanged(Join(names + [name], '/'), '/');
    }
  }

  /** A root's path is its own name: the leading `/` is stripped. */
  lemma RootPath(name: string)
    requires PathSegment(name)
    ensures Strip("" + "/" + name, '/') == name
  {
    var s := "" + "/" + name;
    assert s[1..] == name;
    assert StripStart(s, '/') == StripStart(name, '/') == name;
  }

  /** Rendering distributes over concatenation. */
  lemma RenderAllAppend(a: seq<Placement>, b: seq<Placement>)
    ensures RenderAll(a + b) == RenderAll(a) + RenderAll(b)
  {
  }

  /**
   `build_radio_options` renders the placements: entry `i` is the `/`-join
   of the names from the root to the `i`-th node in pre-order, labelled
   with `4 * level` non-breaking spaces, its icon and its indicator.
   */
  lemma {:induction false} OptionsRenderPlacements(nodes: seq<Node>, ancestors: seq<string>, level: nat)
    requires PathSegmentForest(nodes) && AllPathSegments(ancestors)
    ensures BuildRadioOptions(nodes, Join(ancestors, '/'), level) == RenderAll(Placements(nodes, ancestors, level))
    decreases nodes
  {
    if |nodes| > 0 {
      var n := nodes[0];
      var names := ancestors + [n.indicator];
      assert AllPathSegments(names);
      NodePathExtends(ancestors, n.indicator);
      OptionsRenderPlacements(n.children, names, level + 1);
      OptionsRenderPlacements(nodes[1..], ancestors, level);
      var here := [Placement(names, level, n)];
      RenderAllAppend(here, Placements(n.children, names, level + 1));
      RenderAllAppend(here + Placements(n.children, names, level + 1), Placements(nodes[1..], ancestors, level));
    }
  }

  /**
   `o` is the entry for node `n` reached from a root through `names`: its
   path is the `/`-join of the names, the last being `n`'s indicator, and
   its caption is `4 * depth` non-breaking spaces, `n`'s icon and its
   indicator, where the depth of a root is 0.
   */
  ghost predicate Describes(o: RadioOption, names: seq<string>, n: Node) {
    && |names| >= 1 && names[|names| - 1] == n.indicator
    && o.path == Join(names, '/')
    && o.caption == Indent(|names| - 1) + Icon(n) + n.indicator
  }

  /** A placement below no ancestors renders as the entry describing its node. */
  lemma RenderDescribes(p: Placement)
    requires PlacedBelow(p, [], 0)
    ensures Describes(Render(p), p.names, p.node)
  {
    assert p.level == |p.names| - 1;
  }

  /**
   Entry `i` of the sidebar describes the `i`-th node in pre-order, reached
   through the names of its placement.
   */
  lemma OptionDescribesNode(roots: seq<Node>, i: nat)
    requires PathSegmentForest(roots)
    requires i < |BuildRadioOptions(roots, "", 0)|
    ensures Placements(roots, [], 0)[i].node == Preorder(roots)[i]
    ensures Describes(BuildRadioOptions(roots, "", 0)[i], Placements(roots, [], 0)[i].names, Preorder(roots)[i])
  {
    var ps := Placements(roots, [], 0);
    var p := ps[i];
    assert BuildRadioOptions(roots, "", 0)[i] == Render(p) by {
      OptionsRenderPlacements(roots, [], 0);
      assert Join([], '/') == "";
    }
    assert p.node == Preorder(roots)[i] by {
      PlacementsFollowPreorder(roots, [], 0);
    }
    assert PlacedBelow(p, [], 0) by {
      PlacementShape(roots, [], 0);
      assert p in ps;
    }
    RenderDescribes(p);
  }

  /** The captions of a list of entries, in order. */
  ghost function Captions(os: seq<RadioOption>): (r: seq<string>)
    ensures |r| == |os| && forall i :: 0 <= i < |os| ==> r[i] == os[i].caption
  {
    if |os| == 0 then [] else [os[0].caption] + Captions(os[1..])
  }

  lemma CaptionsAppend(a: seq<RadioOption>, b: seq<RadioOption>)
    ensures Captions(a + b) == Captions(a) + Captions(b)
  {
  }

  /**
   Whatever the names and the parent path, the entries carry the captions
   their placements call for: the caption does not depend on the path.
   */
  lemma {:induction false} OptionCaptionsFollowPlacements(nodes: seq<Node>, parentPath: string, ancestors: seq<string>, level: nat)
    ensures Captions(BuildRadioOptions(nodes, parentPath, level)) == Captions(RenderAll(Placements(nodes, ancestors, level)))
    decreases nodes
  {
    if |nodes| > 0 {
      var n := nodes[0];
      var path, names := NodePath(parentPath, n.indicator), ancestors + [n.indicator];
      var entry := RadioOption(path, Indent(level) + Icon(n) + n.indicator);
      var below := if |n.children| > 0 then BuildRadioOptions(n.children, path, level + 1) else [];
      var rest := BuildRadioOptions(nodes[1..], parentPath, level);
      var here := [Placement(names, level, n)];
      var pBelow, pRest := Placements(n.children, names, level + 1), Placements(nodes[1..], ancestors, level);
      OptionCaptionsFollowPlacements(n.children, path, names, level + 1);
      OptionCaptionsFollowPlacements(nodes[1..], parentPath, ancestors, level);
      CaptionsAppend([entry] + below, rest);
      CaptionsAppend([entry], below);
      RenderAllAppend(here, pBelow);
      RenderAllAppend(here + pBelow, pRest);
      CaptionsAppend(RenderAll(here) + RenderAll(pBelow), RenderAll(pRest));
      CaptionsAppend(RenderAll(here), RenderAll(pBelow));
    }
  }

  /** The `i`-th placement of a forest sits at depth `|names| - 1` and holds the `i`-th node in pre-order. */
  lemma PlacementAt(roots: seq<Node>, i: nat)
    requires i < |Placements(roots, [], 0)|
    ensures var p := Placements(roots, [], 0)[i];
      |p.names| >= 1 && p.level == |p.names| - 1 && p.node == Preorder(roots)[i]
  {
    var ps := Placements(roots, [], 0);
    PlacementsFollowPreorder(roots, [], 0);
    assert PlacedBelow(ps[i], [], 0) by {
      PlacementShape(roots, [], 0);
      assert ps[i] in ps;
    }
  }

  /**
   For every forest, whatever its names, entry `i` of the sidebar is
   captioned with `4 * depth` non-breaking spaces, the icon and the
   indicator of the `i`-th node in pre-order, its depth counted from 0 at
   the roots.
   */
  lemma OptionCaption(roots: seq<Node>, i: nat)
    requires i < |BuildRadioOptions(roots, "", 0)|
    ensures var p, n := Placements(roots, [], 0)[i], Preorder(roots)[i];
      |p.names| >= 1 && BuildRadioOptions(roots, "", 0)[i].caption == Indent(|p.names| - 1) + Icon(n) + n.indicator
  {
    var os, ps := BuildRadioOptions(roots, "", 0), Placements(roots, [], 0);
    OptionCaptionsFollowPlacements(roots, "", [], 0);
    assert Captions(os)[i] == Captions(RenderAll(ps))[i];
    PlacementAt(roots, i);
  }

  /** Each placement belongs to the node pre-order visits at the same position. */
  lemma {:induction false} PlacementsFollowPreorder(nodes: seq<Node>, ancestors: seq<string>, level: nat)
    ensures var ps := Placements(nodes, ancestors, level);
      forall i :: 0 <= i < |ps| ==> ps[i].node == Preorder(nodes)[i]
    decreases nodes
  {
    if |nodes| > 0 {
      var n := nodes[0];
      PlacementsFollowPreorder(n.children, ancestors + [n.indicator], level + 1);
      PlacementsFollowPreorder(nodes[1..], ancestors, level);
    }
  }

  /**
   `p` sits below `ancestors`, whose last member is at depth `level - 1`:
   its names extend the ancestors by at least one name, the last being the
   node's own indicator, and its depth is one per name below the ancestors.
   */
  ghost predicate PlacedBelow(p: Placement, ancestors: seq<string>, level: nat) {
    && |ancestors| < |p.names| && p.names[..|ancestors|] == ancestors
    && p.names[|p.names| - 1] == p.node.indicator
    && p.level == level + |p.names| - |ancestors| - 1
  }

  /** Every placement of a forest sits below the ancestors it was placed under. */
  lemma {:induction false} PlacementShape(nodes: seq<Node>, ancestors: seq<string>, level: nat)
    ensures forall p :: p in Placements(nodes, ancestors, level) ==> PlacedBelow(p, ancestors, level)
    decreases nodes
  {
    if |nodes| > 0 {
      var n := nodes[0];
      var names := ancestors + [n.indicator];
      PlacementShape(n.children, names, level + 1);
      PlacementShape(nodes[1..], ancestors, level);
      assert names[..|ancestors|] == ancestors;
      forall p | p in Placements(n.children, names, level + 1) ensures PlacedBelow(p, ancestors, level) {
        assert p.names[..|ancestors|] == p.names[..|names|][..|ancestors|];
      }
    }
  }

  /** The first node of the level, or `None` where Python would raise `IndexError`. */
  function Head(nodes: seq<Node>): (r: Option<Node>)
    ensures r.Some? <==> |nodes| > 0
    ensures r.Some? ==> r.value == nodes[0]
  {
    if |nodes| == 0 then None else Some(nodes[0])
  }

  /** The position of the first node whose indicator is `name`, or `|nodes|` when there is none. */
  function FirstWithIndicator(nodes: seq<Node>, name: string): (k: nat)
    ensures k <= |nodes|
    ensures k < |nodes| ==> nodes[k].indicator == name
    ensures forall j :: 0 <= j < k ==> nodes[j].indicator != name
  {
    if |nodes| == 0 then 0
    else if nodes[0].indicator == name then 0
    else 1 + FirstWithIndicator(nodes[1..], name)
  }

  /**
   `find_node_by_path(nodes, path)`: whatever the path, the node found is a
   node of the forest, and an empty forest yields nothing.
   */
  function FindNodeByPath(nodes: seq<Node>, path: string): (r: Option<Node>)
    ensures r.Some? ==> r.value in Preorder(nodes)
    ensures |nodes| == 0 ==> r.None?
    decreases nodes
  {
    if |path| == 0 then Head(nodes)
    else
      var parts := Split(Strip(path, '/'), '/');
      var k := FirstWithIndicator(nodes, parts[0]);
      if k == |nodes| then Head(nodes)
      else if |parts| == 1 then
        RootPosition(nodes, k);
        Some(nodes[k])
      else
        var r := FindNodeByPath(nodes[k].children, Join(parts[1..], '/'));
        PreorderLayout(nodes, k);
        r
  }

  /**
   The lookup on names rather than strings: at each level the first sibling
   carrying the next name; `None` when some level has none.
   */
  ghost function Locate(nodes: seq<Node>, names: seq<string>): Option<Node>
    decreases nodes
  {
    if |names| == 0 then None
    else
      var k := FirstWithIndicator(nodes, names[0]);
      if k == |nodes| then None
      else if |names| == 1 then Some(nodes[k])
      else Locate(nodes[k].children, names[1..])
  }

  /** The empty path selects the first root. */
  lemma EmptyPathSelectsFirst(nodes: seq<Node>)
    requires |nodes| > 0
    ensures FindNodeByPath(nodes, "") == Some(nodes[0])
  {
  }

  /**
   A path whose first segment (after stripping `/` at the ends and splitting
   on `/`) names no node of the level selects the first node of the level,
   or nothing when the level is empty.
   */
  lemma UnmatchedSegmentFallsBack(nodes: seq<Node>, path: string)
    requires |path| > 0
    requires forall j :: 0 <= j < |nodes| ==> nodes[j].indicator != Split(Strip(path, '/'), '/')[0]
    ensures |nodes| > 0 ==> FindNodeByPath(nodes, path) == Some(nodes[0])
    ensures |nodes| == 0 ==> FindNodeByPath(nodes, path) == None
  {
  }

  /** Among siblings sharing the indicator a one-segment path names, the lookup picks the earliest. */
  lemma FirstDuplicateWins(nodes: seq<Node>, i: nat, j: nat)
    requires i < j < |nodes| && nodes[i].indicator == nodes[j].indicator
    requires WellNamed(nodes[i].indicator)
    requires forall k :: 0 <= k < i ==> nodes[k].indicator != nodes[i].indicator
    ensures FindNodeByPath(nodes, nodes[j].indicator) == Some(nodes[i])
  {
    var name := nodes[j].indicator;
    StripUnchanged(name, '/');
    SplitPiece(name, '/');
    var k := FirstWithIndicator(nodes, name);
    assert k == i;
  }

  /** On a path that is a join of well-named segments, the lookup agrees with `Locate` wherever that finds a node. */
  lemma {:induction false} FindFollowsNames(nodes: seq<Node>, names: seq<string>)
    requires |names| >= 1 && AllWellNamed(names)
    requires Locate(nodes, names).Some?
    ensures FindNodeByPath(nodes, Join(names, '/')) == Locate(nodes, names)
    decreases nodes
  {
    var path := Join(names, '/');
    assert AllPathSegments(names) by {
      forall k | 0 <= k < |names| ensures PathSegment(names[k]) {
        assert WellNamed(names[k]);
      }
    }
    JoinEnds(names);
    StripUnchanged(path, '/');
    assert SeparatorFree(names, '/') by {
      forall k, j | 0 <= k < |names| && 0 <= j < |names[k]| ensures names[k][j] != '/' {
        assert WellNamed(names[k]);
      }
    }
    SplitJoin(names, '/');
    var k := FirstWithIndicator(nodes, names[0]);
    if |names| > 1 {
      assert AllWellNamed(names[1..]);
      FindFollowsNames(nodes[k].children, names[1..]);
    }
  }

  /** Under unique siblings `Locate` can skip a first node whose indicator is not the first name. */
  lemma LocateSkipsFirst(nodes: seq<Node>, names: seq<string>)
    requires |nodes| > 0 && |names| > 0 && nodes[0].indicator != names[0]
    ensures Locate(nodes, names) == Locate(nodes[1..], names)
  {
    var k := FirstWithIndicator(nodes, names[0]);
    assert k == 1 + FirstWithIndicator(nodes[1..], names[0]);
    if k < |nodes| {
      assert nodes[k] == nodes[1..][k - 1];
    }
  }

  /** The names of `p` below the ancestors lead `Locate` from `nodes` to `p`'s node. */
  ghost predicate LocatedFrom(nodes: seq<Node>, p: Placement, ancestors: seq<string>) {
    |ancestors| <= |p.names| && Locate(nodes, p.names[|ancestors|..]) == Some(p.node)
  }

  /** Under unique sibling names, each node's names below the ancestors locate exactly that node. */
  lemma {:induction false} PlacementsLocate(nodes: seq<Node>, ancestors: seq<string>, level: nat)
    requires UniqueSiblings(nodes)
    ensures forall p :: p in Placements(nodes, ancestors, level) ==> LocatedFrom(nodes, p, ancestors)
    decreases nodes
  {
    if |nodes| > 0 {
      var n := nodes[0];
      var names := ancestors + [n.indicator];
      PlacementsLocate(n.children, names, level + 1);
      PlacementsLocate(nodes[1..], ancestors, level);
      PlacementShape(n.children, names, level + 1);
      PlacementShape(nodes[1..], ancestors, level);
      assert names[|ancestors|..] == [n.indicator];
      forall p | p in Placements(n.children, names, level + 1) ensures LocatedFrom(nodes, p, ancestors) {
        assert PlacedBelow(p, names, level + 1);
        ChildLocated(nodes, p, ancestors);
      }
      forall p | p in Placements(nodes[1..], ancestors, level) ensures LocatedFrom(nodes, p, ancestors) {
        SiblingLocated(nodes, p, ancestors);
      }
    }
  }

  /** A node located from the first root's children is located from the forest through that root. */
  lemma ChildLocated(nodes: seq<Node>, p: Placement, ancestors: seq<string>)
    requires |nodes| > 0
    requires |ancestors| < |p.names| - 1 && p.names[..|ancestors| + 1] == ancestors + [nodes[0].indicator]
    requires LocatedFrom(nodes[0].children, p, ancestors + [nodes[0].indicator])
    ensures LocatedFrom(nodes, p, ancestors)
  {
    var names := ancestors + [nodes[0].indicator];
    var rel := p.names[|ancestors|..];
    assert p.names[..|names|] == names;
    assert rel == p.names[|ancestors|..|names|] + p.names[|names|..];
    assert p.names[|ancestors|..|names|] == [nodes[0].indicator];
    assert rel[1..] == p.names[|names|..];
  }

  /** Under unique siblings, a node located from the later roots is located from the whole forest. */
  lemma SiblingLocated(nodes: seq<Node>, p: Placement, ancestors: seq<string>)
    requires UniqueSiblings(nodes) && |nodes| > 0
    requires LocatedFrom(nodes[1..], p, ancestors)
    ensures LocatedFrom(nodes, p, ancestors)
  {
    var rel := p.names[|ancestors|..];
    var k := FirstWithIndicator(nodes[1..], rel[0]);
    assert nodes[1 + k].indicator != nodes[0].indicator;
    LocateSkipsFirst(nodes, rel);
  }

  /**
   The round trip: when indicator names are non-empty and free of `/` and
   unique among siblings, looking up the path of any sidebar entry selects
   the very node the entry was built for.
   */
  lemma OptionPathsFindTheirNodes(roots: seq<Node>, i: nat)
    requires WellNamedForest(roots) && UniqueSiblings(roots)
    requires i < |BuildRadioOptions(roots, "", 0)|
    ensures FindNodeByPath(roots, BuildRadioOptions(roots, "", 0)[i].path) == Some(Preorder(roots)[i])
  {
    var ps := Placements(roots, [], 0);
    var p := ps[i];
    WellNamedForestSegments(roots);
    OptionDescribesNode(roots, i);
    assert Locate(roots, p.names) == Some(p.node) by {
      PlacementsLocate(roots, [], 0);
      assert p in ps;
      assert LocatedFrom(roots, p, []);
      assert p.names[0..] == p.names;
    }
    assert AllWellNamed(p.names) by {
      PlacementNamesWellNamed(roots, [], 0);
      assert p in ps;
    }
    FindFollowsNames(roots, p.names);
  }

  /** The names of every placement in a well-named forest are well named. */
  lemma {:induction false} PlacementNamesWellNamed(nodes: seq<Node>, ancestors: seq<string>, level: nat)
    requires WellNamedForest(nodes) && AllWellNamed(ancestors)
    ensures forall p :: p in Placements(nodes, ancestors, level) ==> AllWellNamed(p.names)
    decreases nodes
  {
    if |nodes| > 0 {
      var n := nodes[0];
      var names := ancestors + [n.indicator];
      assert AllWellNamed(names);
      PlacementNamesWellNamed(n.children, names, level + 1);
      PlacementNamesWellNamed(nodes[1..], ancestors, level);
    }
  }
}

=== FILE: rounding.dfy ===
/**
 Python's `round(x, ndigits)` on exact reals: scale by a power of ten, go to
 the nearest integer with halves going to the even neighbour, scale back.
 Binary floating point is not modelled; the model rounds the exact value.
 */
module Rounding {

  /** 10 to the power `d`. */
  function Pow10(d: nat): (r: int)
    ensures r >= 1
  {
    if d == 0 then 1 else 10 * Pow10(d - 1)
  }

  /** The integer nearest to `y`; a value exactly halfway goes to the even neighbour. */
  function RoundHalfEven(y: real): (n: int)
    ensures y - 0.5 <= n as real <= y + 0.5
    ensures (n as real == y - 0.5 || n as real == y + 0.5) ==> n % 2 == 0
  {
    var f := y.Floor;
    var frac := y - f as real;
    if frac < 0.5 then f
    else if frac > 0.5 then f + 1
    else if f % 2 == 0 then f
    else f + 1
  }

  /** The scale factor for `d` decimal places, as a real. */
  function Scale(d: nat): (p: real)
    ensures p >= 1.0
  {
    Pow10(d) as real
  }

  /** `round(x, d)`. */
  function Round(x: real, d: nat): real
  {
    RoundScaled(x, Scale(d))
  }

  /** Rounding to the nearest multiple of `1 / p`. */
  function RoundScaled(x: real, p: real): real
    requires p > 0.0
  {
    RoundHalfEven(x * p) as real / p
  }

  /** `x` already has at most `d` decimal places, so rounding leaves it alone. */
  ghost predicate IsRounded(x: real, d: nat) {
    Round(x, d) == x
  }

  /** Nearest-integer rounding leaves integers alone. */
  lemma RoundHalfEvenInteger(k: int)
    ensures RoundHalfEven(k as real) == k
  {
  }

  /** Nearest-integer rounding is monotone. */
  lemma RoundHalfEvenMonotone(x: real, y: real)
    requires x <= y
    ensures RoundHalfEven(x) <= RoundHalfEven(y)
  {
    if x < y {
      var n, m := RoundHalfEven(x), RoundHalfEven(y);
      assert (n - m) as real < 1.0;
    }
  }

  /** Rounding is idempotent: a rounded value has at most `d` decimal places. */
  lemma RoundIdempotent(x: real, d: nat)
    ensures IsRounded(Round(x, d), d)
  {
    ScaledIdempotent(x, Scale(d));
  }

  /** Rounding to a multiple of `1 / p` twice is rounding once. */
  lemma ScaledIdempotent(x: real, p: real)
    requires p > 0.0
    ensures RoundScaled(RoundScaled(x, p), p) == RoundScaled(x, p)
  {
    ScaledMultiple(RoundHalfEven(x * p), p);
  }

  /** A multiple of `1 / p` is left alone by rounding to multiples of `1 / p`. */
  lemma ScaledMultiple(k: int, p: real)
    requires p > 0.0
    ensures RoundScaled(k as real / p, p) == k as real / p
  {
    var x := k as real / p;
    RoundScaledUnfold(x, p);
    assert x * p == k as real;
    RoundHalfEvenInteger(k);
  }

  /** Unfolds `RoundScaled` at an argument the solver does not instantiate on its own. */
  lemma RoundScaledUnfold(x: real, p: real)
    requires p > 0.0
    ensures RoundScaled(x, p) == RoundHalfEven(x * p) as real / p
  {
  }

  /** Rounding is monotone. */
  lemma RoundMonotone(x: real, y: real, d: nat)
    requires x <= y
    ensures Round(x, d) <= Round(y, d)
  {
    ScaledMonotone(x, y, Scale(d));
  }

  /** Rounding to a multiple of `1 / p` is monotone. */
  lemma ScaledMonotone(x: real, y: real, p: real)
    requires x <= y && p > 0.0
    ensures RoundScaled(x, p) <= RoundScaled(y, p)
  {
    assert x * p <= y * p;
    RoundHalfEvenMonotone(x * p, y * p);
    var n, m := RoundHalfEven(x * p), RoundHalfEven(y * p);
    DivideMonotone(n as real, m as real, p);
  }

  /** Dividing by a positive number keeps order. */
  lemma DivideMonotone(a: real, b: real, p: real)
    requires a <= b && p > 0.0
    ensures a / p <= b / p
  {
    assert b / p - a / p == (b - a) / p;
  }

  /** Whole numbers are left alone at every precision. */
  lemma RoundInteger(k: int, d: nat)
    ensures Round(k as real, d) == k as real
  {
    var p := Pow10(d);
    assert Scale(d) == p as real >= 1.0;
    assert k as real * p as real == (k * p) as real;
    RoundHalfEvenInteger(k * p);
    assert (k * p) as real / p as real == k as real;
  }

  /** Rounding keeps a value inside whole-number bounds. */
  lemma RoundWithin(x: real, lo: int, hi: int, d: nat)
    requires lo as real <= x <= hi as real
    ensures lo as real <= Round(x, d) <= hi as real
  {
    RoundMonotone(lo as real, x, d);
    RoundMonotone(x, hi as real, d);
    RoundInteger(lo, d);
    RoundInteger(hi, d);
  }
}

=== FILE: series.dfy ===
/**
 The synthetic series generator: a 12-point random walk clamped to
 `[minval, maxval]`, a sparse-noise pass over the interior points, and
 rounding of every point.

 The random source is an explicit sequence of draws, each a value of
 Python's `random.random()` in `[0, 1)`, consumed front to back in the order
 the generator asks for them. `random.uniform(a, b)` is `a + (b - a) * u`
 for the next draw `u`. Each function returns how many draws it consumed,
 so that callers can thread one source through many series: the next
 consumer reads `rng[used..]`.
 */
module Series {
  import opened Rounding
  import opened UnitInference

  /** Number of points in every series. */
  const SeriesLength := 12
  /** Draws the walk consumes: one for the start, two per later point. */
  const WalkDraws := 1 + 2 * (SeriesLength - 1)
  /** Most draws the noise pass can consume: two per interior point. */
  const MaxNoiseDraws := 2 * (SeriesLength - 4)
  /** Most draws one series can consume. */
  const MaxDraws := WalkDraws + MaxNoiseDraws

  /** Every draw is a value of `random.random()`. */
  ghost predicate UnitDraws(rng: seq<real>) {
    forall k :: 0 <= k < |rng| ==> 0.0 <= rng[k] < 1.0
  }

  /** A value computed from a random source, together with the number of draws it consumed. */
  datatype Drawn<T> = Drawn(value: T, used: nat)

  function Abs(x: real): real {
    if x < 0.0 then -x else x
  }

  /** `random.uniform(a, b)` when `random.random()` returned `u`. */
  function Uniform(a: real, b: real, u: real): (r: real)
    ensures a <= b && 0.0 <= u <= 1.0 ==> a <= r <= b
  {
    FractionOfWidth(b - a, u);
    a + (b - a) * u
  }

  /** A fraction in `[0, 1]` of a non-negative width lies between zero and the width. */
  lemma FractionOfWidth(width: real, u: real)
    ensures width >= 0.0 && 0.0 <= u <= 1.0 ==> 0.0 <= width * u <= width
  {
    if width >= 0.0 && 0.0 <= u <= 1.0 {
      assert width * (1.0 - u) >= 0.0;
    }
  }

  /** `max(min(x, hi), lo)`. */
  function Clamp(x: real, lo: real, hi: real): (r: real)
    ensures lo <= hi ==> lo <= r <= hi
    ensures lo <= x <= hi ==> r == x
    ensures hi < lo ==> r == lo
  {
    var m := if x < hi then x else hi;
    if m > lo then m else lo
  }

  /** Clamping a step taken from a point inside the range never lengthens the step. */
  lemma ClampShortensStep(p: real, change: real, bound: real, lo: real, hi: real)
    requires lo <= p <= hi && Abs(change) <= bound
    ensures Abs(Clamp(p + change, lo, hi) - p) <= bound
  {
  }

  /** A uniform factor in `[-a, a]` scaled by a non-negative width is at most `a` widths. */
  lemma ScaledUniformBound(a: real, u: real, width: real)
    requires a >= 0.0 && 0.0 <= u <= 1.0 && width >= 0.0
    ensures Abs(Uniform(-a, a, u) * width) <= a * width
  {
    var f := Uniform(-a, a, u);
    assert -a <= f <= a;
    if f >= 0.0 {
      assert f * width <= a * width;
    } else {
      assert (-f) * width <= a * width;
    }
  }

  /**
   A point moved by a uniform factor in `[-a, a]` of the width, then clamped
   to the range. From a point inside the range it moves by at most `a` widths.
   */
  function Shifted(p: real, a: real, u: real, lo: real, hi: real): (r: real)
    ensures lo <= hi ==> lo <= r <= hi
    ensures hi < lo ==> r == lo
    ensures lo <= p <= hi && a >= 0.0 && 0.0 <= u <= 1.0 ==> Abs(r - p) <= a * (hi - lo)
  {
    var change := Uniform(-a, a, u) * (hi - lo);
    var bound := a * (hi - lo);
    if lo <= p <= hi && a >= 0.0 && 0.0 <= u <= 1.0 then
      ScaledUniformBound(a, u, hi - lo);
      ClampShortensStep(p, change, bound, lo, hi);
      Clamp(p + change, lo, hi)
    else
      Clamp(p + change, lo, hi)
  }

  /** Largest move the walk may make into point `k`: drift only up to point 3, regime shifts after. */
  ghost function StepBound(k: int, lo: real, hi: real): real {
    if k <= 3 then 0.1 * (hi - lo) else 0.4 * (hi - lo)
  }

  /**
   One iteration of the walk's loop, with loop counter `i`, coin `coin` and
   uniform draw `u`: the coin selects a regime shift (factor in `[-0.4, 0.4]`)
   only when below 0.2 and `i` exceeds 2, a drift (factor in `[-0.1, 0.1]`)
   otherwise; the new point is the last one plus factor times width, clamped.
   */
  function WalkStep(last: real, i: nat, lo: real, hi: real, coin: real, u: real): (next: real)
    ensures lo <= hi ==> lo <= next <= hi
    ensures hi < lo ==> next == lo
  {
    if coin < 0.2 && i > 2 then Shifted(last, 0.4, u, lo, hi)
    else Shifted(last, 0.1, u, lo, hi)
  }

  /**
   From a point inside the range, the step into point `i + 1` is at most
   `StepBound(i + 1)`: a regime shift is at most four tenths of the width,
   a drift at most one tenth.
   */
  lemma WalkStepBound(last: real, i: nat, lo: real, hi: real, coin: real, u: real)
    requires 0.0 <= u <= 1.0 && lo <= last <= hi
    ensures Abs(WalkStep(last, i, lo, hi, coin, u) - last) <= StepBound(i + 1, lo, hi)
  {
    var next := WalkStep(last, i, lo, hi, coin, u);
    if coin < 0.2 && i > 2 {
      assert next == Shifted(last, 0.4, u, lo, hi);
      assert StepBound(i + 1, lo, hi) == 0.4 * (hi - lo);
    } else {
      assert next == Shifted(last, 0.1, u, lo, hi);
      assert 0.1 * (hi - lo) <= StepBound(i + 1, lo, hi);
    }
  }

  /** The walk's loop from the point with index `|ts|` on, two draws per point. */
  function WalkFrom(ts: seq<real>, lo: real, hi: real, rng: seq<real>): (r: Drawn<seq<real>>)
    requires 1 <= |ts| <= SeriesLength
    requires |rng| >= 2 * (SeriesLength - |ts|)
    requires UnitDraws(rng)
    ensures |r.value| == SeriesLength
    ensures r.value[..|ts|] == ts
    ensures r.used == 2 * (SeriesLength - |ts|)
    decreases SeriesLength - |ts|
  {
    if |ts| == SeriesLength then Drawn(ts, 0)
    else
      var next := WalkStep(ts[|ts| - 1], |ts| - 1, lo, hi, rng[0], rng[1]);
      var r := WalkFrom(ts + [next], lo, hi, rng[2..]);
      assert r.value[..|ts| + 1] == ts + [next];
      assert r.value[..|ts|] == (ts + [next])[..|ts|];
      Drawn(r.value, r.used + 2)
  }

  /** The clamped random walk: a uniform start in the range, then eleven steps. */
  function Walk(lo: real, hi: real, rng: seq<real>): (r: Drawn<seq<real>>)
    requires |rng| >= WalkDraws
    requires UnitDraws(rng)
    ensures |r.value| == SeriesLength
    ensures r.value[0] == Uniform(lo, hi, rng[0])
    ensures r.used == WalkDraws
  {
    var start := Uniform(lo, hi, rng[0]);
    var r := WalkFrom([start], lo, hi, rng[1..]);
    assert r.value[..1] == [start];
    Drawn(r.value, r.used + 1)
  }

  /**
   With a well-formed range every walk point lies in it; with the bounds
   swapped every point after the start is `lo`.
   */
  lemma WalkWithinRange(lo: real, hi: real, rng: seq<real>)
    requires |rng| >= WalkDraws && UnitDraws(rng)
    ensures var w := Walk(lo, hi, rng).value;
      && (lo <= hi ==> forall k :: 0 <= k < SeriesLength ==> lo <= w[k] <= hi)
      && (hi < lo ==> forall k :: 1 <= k < SeriesLength ==> w[k] == lo)
  {
    WalkPoints(lo, hi, rng);
    var w := Walk(lo, hi, rng).value;
    assert 0.0 <= rng[0] < 1.0;
    forall k | 1 <= k < SeriesLength
      ensures lo <= hi ==> lo <= w[k] <= hi
      ensures hi < lo ==> w[k] == lo
    {
      assert w[k] == WalkStep(w[k - 1], k - 1, lo, hi, rng[2 * k - 1], rng[2 * k]);
    }
  }

  /**
   With a well-formed range the step into point `k` of the walk is at most
   `StepBound(k)`: a tenth of the width for points 1 to 3, which only the
   drift branch can produce, four tenths after.
   */
  lemma WalkStepsBounded(lo: real, hi: real, rng: seq<real>)
    requires |rng| >= WalkDraws && UnitDraws(rng)
    requires lo <= hi
    ensures var w := Walk(lo, hi, rng).value;
      forall k :: 1 <= k < SeriesLength ==> Abs(w[k] - w[k - 1]) <= StepBound(k, lo, hi)
  {
    WalkPoints(lo, hi, rng);
    WalkWithinRange(lo, hi, rng);
    var w := Walk(lo, hi, rng).value;
    forall k | 1 <= k < SeriesLength ensures Abs(w[k] - w[k - 1]) <= StepBound(k, lo, hi) {
      assert 0.0 <= rng[2 * k] < 1.0;
      WalkStepBound(w[k - 1], k - 1, lo, hi, rng[2 * k - 1], rng[2 * k]);
    }
  }

  /**
   The sparse-noise loop from index `i` up to, not including, `|ts| - 2`: each
   iteration draws a coin, and below 0.12 draws a uniform factor in
   `[-0.3, 0.3]`, adds factor times width to the point and clamps it.
   */
  function NoiseFrom(ts: seq<real>, i: nat, lo: real, hi: real, rng: seq<real>): (r: Drawn<seq<real>>)
    requires 2 <= i <= |ts| - 2
    requires |rng| >= 2 * (|ts| - 2 - i)
    requires UnitDraws(rng)
    ensures |r.value| == |ts|
    ensures |ts| - 2 - i <= r.used <= 2 * (|ts| - 2 - i)
    ensures forall k :: 0 <= k < |ts| && !(i <= k < |ts| - 2) ==> r.value[k] == ts[k]
    ensures lo <= hi ==> forall k :: i <= k < |ts| - 2 && lo <= ts[k] <= hi ==>
      lo <= r.value[k] <= hi && Abs(r.value[k] - ts[k]) <= 0.3 * (hi - lo)
    ensures hi < lo ==> forall k :: i <= k < |ts| - 2 ==> r.value[k] == ts[k] || r.value[k] == lo
    decreases |ts| - 2 - i
  {
    if i == |ts| - 2 then Drawn(ts, 0)
    else if rng[0] < 0.12 then
      var noisy := Shifted(ts[i], 0.3, rng[1], lo, hi);
      assert lo <= ts[i] <= hi ==> Abs(noisy - ts[i]) <= 0.3 * (hi - lo) by {
        if lo <= ts[i] <= hi {
          assert 0.0 <= rng[1] < 1.0;
        }
      }
      var r := NoiseFrom(ts[i := noisy], i + 1, lo, hi, rng[2..]);
      Drawn(r.value, r.used + 2)
    else
      var r := NoiseFrom(ts, i + 1, lo, hi, rng[1..]);
      Drawn(r.value, r.used + 1)
  }

  /**
   `round(v, decimals)` of every point: each point of the result carries at
   most `decimals` decimals.
   */
  function RoundAll(ts: seq<real>, decimals: nat): (r: seq<real>)
    ensures |r| == |ts|
    ensures forall k :: 0 <= k < |ts| ==> r[k] == Round(ts[k], decimals)
    ensures forall k :: 0 <= k < |r| ==> IsRounded(r[k], decimals)
  {
    var r := seq(|ts|, k requires 0 <= k < |ts| => Round(ts[k], decimals));
    assert forall k :: 0 <= k < |ts| ==> IsRounded(r[k], decimals) by {
      forall k | 0 <= k < |ts| ensures IsRounded(r[k], decimals) {
        RoundIdempotent(ts[k], decimals);
      }
    }
    r
  }

  /** Rounding keeps a series that lies within whole-number bounds within them. */
  lemma RoundAllWithin(ts: seq<real>, decimals: nat, lo: int, hi: int)
    requires forall k :: 0 <= k < |ts| ==> lo as real <= ts[k] <= hi as real
    ensures forall k :: 0 <= k < |ts| ==> lo as real <= RoundAll(ts, decimals)[k] <= hi as real
  {
    forall k | 0 <= k < |ts| ensures lo as real <= RoundAll(ts, decimals)[k] <= hi as real {
      RoundWithin(ts[k], lo, hi, decimals);
    }
  }

  /** The series before rounding: the walk followed by the noise pass. */
  function RawSeries(minval: int, maxval: int, rng: seq<real>): (r: Drawn<seq<real>>)
    requires |rng| >= MaxDraws
    requires UnitDraws(rng)
    ensures |r.value| == SeriesLength
    ensures WalkDraws + SeriesLength - 4 <= r.used <= MaxDraws
  {
    var w := Walk(minval as real, maxval as real, rng);
    var n := NoiseFrom(w.value, 2, minval as real, maxval as real, rng[w.used..]);
    Drawn(n.value, w.used + n.used)
  }

  /**
   `generate_realistic_timeseries(unit, minval, maxval, decimals)`. The unit
   argument takes no part in the computation.
   */
  function GenerateRealisticTimeseries(unit: Unit, minval: int, maxval: int, decimals: nat, rng: seq<real>)
    : (r: Drawn<seq<real>>)
    requires |rng| >= MaxDraws
    requires UnitDraws(rng)
    ensures |r.value| == SeriesLength
    ensures forall k :: 0 <= k < SeriesLength ==> IsRounded(r.value[k], decimals)
    ensures minval <= maxval ==> forall k :: 0 <= k < SeriesLength ==> minval as real <= r.value[k] <= maxval as real
    ensures WalkDraws + SeriesLength - 4 <= r.used <= MaxDraws
  {
    var raw := RawSeries(minval, maxval, rng);
    var pts := RoundAll(raw.value, decimals);
    assert minval <= maxval ==> forall k :: 0 <= k < SeriesLength ==> minval as real <= pts[k] <= maxval as real by {
      if minval <= maxval {
        RawSeriesWithin(minval, maxval, rng);
        RoundAllWithin(raw.value, decimals, minval, maxval);
      }
    }
    Drawn(pts, raw.used)
  }

  /** The unit argument has no effect on the series. */
  lemma UnitIsIgnored(u: Unit, u': Unit, minval: int, maxval: int, decimals: nat, rng: seq<real>)
    requires |rng| >= MaxDraws && UnitDraws(rng)
    ensures GenerateRealisticTimeseries(u, minval, maxval, decimals, rng)
         == GenerateRealisticTimeseries(u', minval, maxval, decimals, rng)
  {
  }

  /** With a well-formed range every raw point, after the walk and after the noise, lies in it. */
  lemma RawSeriesWithin(minval: int, maxval: int, rng: seq<real>)
    requires |rng| >= MaxDraws && UnitDraws(rng)
    requires minval <= maxval
    ensures forall k :: 0 <= k < SeriesLength ==>
      minval as real <= RawSeries(minval, maxval, rng).value[k] <= maxval as real
  {
    var lo, hi := minval as real, maxval as real;
    var w := Walk(lo, hi, rng);
    WalkWithinRange(lo, hi, rng);
    var n := NoiseFrom(w.value, 2, lo, hi, rng[WalkDraws..]);
    forall k | 0 <= k < SeriesLength ensures lo <= n.value[k] <= hi {
      if !(2 <= k < SeriesLength - 2) {
        assert n.value[k] == w.value[k];
      }
    }
  }

  /** The noise pass touches only points 2 to 9: the first two and last two keep their walk values. */
  lemma NoiseSparesEnds(minval: int, maxval: int, rng: seq<real>)
    requires |rng| >= MaxDraws && UnitDraws(rng)
    ensures var w := Walk(minval as real, maxval as real, rng);
      forall k :: k in {0, 1, 10, 11} ==> RawSeries(minval, maxval, rng).value[k] == w.value[k]
  {
    var w := Walk(minval as real, maxval as real, rng);
  }

  /** Each noise perturbation moves an interior point by at most 0.3 widths. */
  lemma NoiseIsBounded(minval: int, maxval: int, rng: seq<real>)
    requires |rng| >= MaxDraws && UnitDraws(rng)
    requires minval <= maxval
    ensures var w := Walk(minval as real, maxval as real, rng);
      forall k :: 2 <= k < SeriesLength - 2 ==>
        Abs(RawSeries(minval, maxval, rng).value[k] - w.value[k]) <= 0.3 * (maxval - minval) as real
  {
    var w := Walk(minval as real, maxval as real, rng);
    WalkWithinRange(minval as real, maxval as real, rng);
  }

  /**
   With the bounds swapped every clamp yields `minval`, so every point after
   the first is `minval`; only the unclamped start can differ.
   */
  lemma SwappedRangeCollapses(unit: Unit, minval: int, maxval: int, decimals: nat, rng: seq<real>)
    requires |rng| >= MaxDraws && UnitDraws(rng)
    requires maxval < minval
    ensures forall k :: 1 <= k < SeriesLength ==>
      GenerateRealisticTimeseries(unit, minval, maxval, decimals, rng).value[k] == minval as real
  {
    var lo, hi := minval as real, maxval as real;
    var w := Walk(lo, hi, rng);
    WalkWithinRange(lo, hi, rng);
    var n := NoiseFrom(w.value, 2, lo, hi, rng[WalkDraws..]);
    RoundInteger(minval, decimals);
    forall k | 1 <= k < SeriesLength ensures Round(n.value[k], decimals) == lo {
      assert n.value[k] == lo;
    }
    assert GenerateRealisticTimeseries(unit, minval, maxval, decimals, rng).value == RoundAll(n.value, decimals);
  }

  /** Point `k` of the loop's output is one step from point `k - 1`, taken with draws `2 (k - |ts|)` and the next. */
  lemma {:induction false} WalkFromSteps(ts: seq<real>, lo: real, hi: real, rng: seq<real>)
    requires 1 <= |ts| <= SeriesLength
    requires |rng| >= 2 * (SeriesLength - |ts|)
    requires UnitDraws(rng)
    ensures var w := WalkFrom(ts, lo, hi, rng).value;
      forall k :: |ts| <= k < SeriesLength ==>
        w[k] == WalkStep(w[k - 1], k - 1, lo, hi, rng[2 * (k - |ts|)], rng[2 * (k - |ts|) + 1])
    decreases SeriesLength - |ts|
  {
    if |ts| < SeriesLength {
      var next := WalkStep(ts[|ts| - 1], |ts| - 1, lo, hi, rng[0], rng[1]);
      assert WalkFrom(ts, lo, hi, rng).value == WalkFrom(ts + [next], lo, hi, rng[2..]).value;
      WalkFromSteps(ts + [next], lo, hi, rng[2..]);
      var w := WalkFrom(ts, lo, hi, rng).value;
      assert w[..|ts| + 1] == ts + [next];
      assert w[|ts|] == next && w[|ts| - 1] == ts[|ts| - 1];
      forall k | |ts| <= k < SeriesLength
        ensures w[k] == WalkStep(w[k - 1], k - 1, lo, hi, rng[2 * (k - |ts|)], rng[2 * (k - |ts|) + 1])
      {
        if k > |ts| {
          assert rng[2..][2 * (k - |ts| - 1)] == rng[2 * (k - |ts|)];
          assert rng[2..][2 * (k - |ts| - 1) + 1] == rng[2 * (k - |ts|) + 1];
        }
      }
    }
  }

  /** Point `k` of the walk is one loop step from point `k - 1` with loop counter `k - 1` and draws `2k - 1`, `2k`. */
  lemma WalkPoints(lo: real, hi: real, rng: seq<real>)
    requires |rng| >= WalkDraws && UnitDraws(rng)
    ensures var w := Walk(lo, hi, rng).value;
      && w[0] == Uniform(lo, hi, rng[0])
      && forall k :: 1 <= k < SeriesLength ==> w[k] == WalkStep(w[k - 1], k - 1, lo, hi, rng[2 * k - 1], rng[2 * k])
  {
    var start := Uniform(lo, hi, rng[0]);
    var tail := rng[1..];
    var w := Walk(lo, hi, rng).value;
    var ts := [start];
    assert w == WalkFrom(ts, lo, hi, tail).value;
    WalkFromSteps(ts, lo, hi, tail);
    forall k | 1 <= k < SeriesLength
      ensures w[k] == WalkStep(w[k - 1], k - 1, lo, hi, rng[2 * k - 1], rng[2 * k])
    {
      assert |ts| <= k;
      assert w[k] == WalkStep(w[k - 1], k - 1, lo, hi, tail[2 * (k - |ts|)], tail[2 * (k - |ts|) + 1]);
      assert tail[2 * (k - 1)] == rng[2 * k - 1];
      assert tail[2 * (k - 1) + 1] == rng[2 * k];
    }
  }

  /**
   The drift-only bound stops at point 3: the step into point 4 (loop counter
   3) already takes a regime shift when its coin is below 0.2.
   */
  lemma FourthStepMayJump()
    ensures Abs(WalkStep(5.0, 3, 0.0, 10.0, 0.0, 0.99) - 5.0) > StepBound(3, 0.0, 10.0)
  {
    assert WalkStep(5.0, 3, 0.0, 10.0, 0.0, 0.99) == 8.92;
  }
}

=== FILE: text.dfy ===
/**
 String helpers that mirror the Python string operations the dashboard uses:
 substring tests (`in`), `lower()`, `strip(c)`, `split(c)`, `c.join(xs)` and
 the whitespace `split()` that `long_paragraph` counts words with.
 Strings are sequences of characters.
 */
module Text {

  /** `p` is a prefix of `s`. */
  predicate IsPrefix(p: string, s: string) {
    |p| <= |s| && s[..|p|] == p
  }

  /** Python's `sub in s`: `sub` occurs somewhere in `s` (the empty string occurs everywhere). */
  predicate Contains(s: string, sub: string)
    decreases |s|
  {
    IsPrefix(sub, s) || (|s| > 0 && Contains(s[1..], sub))
  }

  /** A string ends with an occurrence of its suffix. */
  lemma ContainsSuffix(a: string, b: string)
    ensures Contains(a + b, b)
  {
    assert (a + b)[|a|..|a| + |b|] == b;
    ContainsAt(a + b, b, |a|);
  }

  /** An occurrence found at a position is an occurrence. */
  lemma {:induction false} ContainsAt(s: string, sub: string, i: nat)
    requires i + |sub| <= |s| && s[i..i + |sub|] == sub
    ensures Contains(s, sub)
    decreases i
  {
    if i == 0 {
      assert s[..|sub|] == sub;
    } else {
      assert s[1..][i - 1..i - 1 + |sub|] == s[i..i + |sub|];
      ContainsAt(s[1..], sub, i - 1);
    }
  }

  /** Every occurrence sits at some position. */
  lemma {:induction false} ContainsPosition(s: string, sub: string) returns (i: nat)
    requires Contains(s, sub)
    ensures i + |sub| <= |s| && s[i..i + |sub|] == sub
    decreases |s|
  {
    if IsPrefix(sub, s) {
      i := 0;
    } else {
      var j := ContainsPosition(s[1..], sub);
      assert s[1..][j..j + |sub|] == s[j + 1..j + 1 + |sub|];
      i := j + 1;
    }
  }

  /** Containment is transitive: a string containing `t` contains everything `t` contains. */
  lemma ContainsTransitive(s: string, t: string, u: string)
    requires Contains(s, t) && Contains(t, u)
    ensures Contains(s, u)
  {
    var i := ContainsPosition(s, t);
    var j := ContainsPosition(t, u);
    var window := s[i..i + |t|];
    assert window == t;
    var found := s[i + j..i + j + |u|];
    assert forall k :: 0 <= k < |u| ==> found[k] == window[j + k];
    assert s[i + j..i + j + |u|] == t[j..j + |u|];
    ContainsAt(s, u, i + j);
  }

  /** Lower-casing of one character (ASCII letters only). */
  function LowerChar(c: char): (r: char)
    ensures 'A' <= c <= 'Z' ==> 'a' <= r <= 'z'
    ensures !('A' <= c <= 'Z') ==> r == c
  {
    if 'A' <= c <= 'Z' then (c as int - 'A' as int + 'a' as int) as char else c
  }

  /** Python's `s.lower()`, restricted to ASCII letters. */
  function Lower(s: string): (r: string)
    ensures |r| == |s|
    ensures forall i :: 0 <= i < |s| ==> r[i] == LowerChar(s[i])
  {
    if |s| == 0 then "" else [LowerChar(s[0])] + Lower(s[1..])
  }

  /** Lower-casing twice is lower-casing once. */
  lemma LowerIdempotent(s: string)
    ensures Lower(Lower(s)) == Lower(s)
  {
    assert forall i :: 0 <= i < |s| ==> Lower(Lower(s))[i] == Lower(s)[i];
  }

  /** Python's `s.lstrip(c)`. */
  function StripStart(s: string, c: char): (r: string)
    ensures |r| <= |s| && r == s[|s| - |r|..]
    ensures forall k :: 0 <= k < |s| - |r| ==> s[k] == c
    ensures |r| == 0 || r[0] != c
  {
    if |s| > 0 && s[0] == c then StripStart(s[1..], c) else s
  }

  /** Python's `s.rstrip(c)`. */
  function StripEnd(s: string, c: char): (r: string)
    ensures |r| <= |s| && r == s[..|r|]
    ensures forall k :: |r| <= k < |s| ==> s[k] == c
    ensures |r| == 0 || r[|r| - 1] != c
  {
    if |s| > 0 && s[|s| - 1] == c then StripEnd(s[..|s| - 1], c) else s
  }

  /** Python's `s.strip(c)`: drop every leading and trailing `c`. */
  function Strip(s: string, c: char): (r: string)
  {
    StripEnd(StripStart(s, c), c)
  }

  /** `strip` removes a run of `c` at each end and nothing else. */
  lemma StripShape(s: string, c: char) returns (i: nat)
    ensures var r := Strip(s, c);
      && i + |r| <= |s| && r == s[i..i + |r|]
      && (forall k :: 0 <= k < i ==> s[k] == c)
      && (forall k :: i + |r| <= k < |s| ==> s[k] == c)
  {
    var t := StripStart(s, c);
    var r := StripEnd(t, c);
    i := |s| - |t|;
    assert r == s[i..][..|r|];
    forall k | i + |r| <= k < |s| ensures s[k] == c {
      assert s[k] == t[k - i];
    }
  }

  /** `strip` leaves no `c` at either end. */
  lemma StripEnds(s: string, c: char)
    ensures var r := Strip(s, c); |r| == 0 || (r[0] != c && r[|r| - 1] != c)
  {
    var t := StripStart(s, c);
    var r := StripEnd(t, c);
    assert Strip(s, c) == r;
    if |r| > 0 {
      assert |t| > 0 && t[0] != c;
      assert r == t[..|r|];
      assert r[0] == t[0];
    }
  }

  /** A string that neither starts nor ends with `c` is left alone by `strip(c)`. */
  lemma StripUnchanged(s: string, c: char)
    requires |s| == 0 || (s[0] != c && s[|s| - 1] != c)
    ensures Strip(s, c) == s
  {
  }

  /** Python's `sep.join(xs)` for a one-character separator. */
  function Join(xs: seq<string>, sep: char): string
  {
    if |xs| == 0 then ""
    else if |xs| == 1 then xs[0]
    else xs[0] + [sep] + Join(xs[1..], sep)
  }

  /** Python's `s.split(sep)`: never empty, and joining the pieces gives `s` back. */
  function Split(s: string, sep: char): (r: seq<string>)
    ensures |r| >= 1
    ensures forall k, j :: 0 <= k < |r| && 0 <= j < |r[k]| ==> r[k][j] != sep
    ensures Join(r, sep) == s
  {
    if |s| == 0 then [""]
    else if s[0] == sep then [""] + Split(s[1..], sep)
    else
      var rest := Split(s[1..], sep);
      [[s[0]] + rest[0]] + rest[1..]
  }

  /** No piece of `xs` contains the separator. */
  ghost predicate SeparatorFree(xs: seq<string>, sep: char) {
    forall k, j :: 0 <= k < |xs| && 0 <= j < |xs[k]| ==> xs[k][j] != sep
  }

  /** Splitting a join of separator-free pieces gives the pieces back. */
  lemma {:induction false} SplitJoin(xs: seq<string>, sep: char)
    requires |xs| >= 1 && SeparatorFree(xs, sep)
    ensures Split(Join(xs, sep), sep) == xs
    decreases |xs|, |xs[0]|, 1
  {
    if |xs| == 1 {
      SplitPiece(xs[0], sep);
    } else if |xs[0]| == 0 {
      SplitJoinEmptyHead(xs, sep);
    } else {
      SplitJoinLongHead(xs, sep);
    }
  }

  /** `SplitJoin` when the first piece is empty: the join starts with the separator. */
  lemma {:induction false} SplitJoinEmptyHead(xs: seq<string>, sep: char)
    requires |xs| >= 2 && |xs[0]| == 0 && SeparatorFree(xs, sep)
    ensures Split(Join(xs, sep), sep) == xs
    decreases |xs|, |xs[0]|, 0
  {
    var tail := xs[1..];
    SeparatorFreeTail(xs, sep);
    SplitJoin(tail, sep);
    assert Join(xs, sep) == [sep] + Join(tail, sep);
    SplitAtSeparator(Join(tail, sep), sep);
    assert xs == [""] + tail;
  }

  /** `SplitJoin` when the first piece is not empty: the join starts with its first character. */
  lemma {:induction false} SplitJoinLongHead(xs: seq<string>, sep: char)
    requires |xs| >= 2 && |xs[0]| >= 1 && SeparatorFree(xs, sep)
    ensures Split(Join(xs, sep), sep) == xs
    decreases |xs|, |xs[0]|, 0
  {
    var ys := [xs[0][1..]] + xs[1..];
    SeparatorFreeShift(xs, sep);
    SplitJoin(ys, sep);
    JoinShift(xs, sep);
    SplitAtCharacter(xs[0][0], Join(ys, sep), sep);
    assert xs[0] == [xs[0][0]] + ys[0];
    assert ys[1..] == xs[1..];
  }

  /** With at least two pieces, the join starts with the first character of a non-empty first piece. */
  lemma JoinShift(xs: seq<string>, sep: char)
    requires |xs| >= 2 && |xs[0]| >= 1
    ensures Join(xs, sep) == [xs[0][0]] + Join([xs[0][1..]] + xs[1..], sep)
  {
    var ys := [xs[0][1..]] + xs[1..];
    assert ys[1..] == xs[1..];
    calc {
      Join(xs, sep);
      xs[0] + [sep] + Join(xs[1..], sep);
      { assert xs[0] == [xs[0][0]] + ys[0]; }
      [xs[0][0]] + ys[0] + [sep] + Join(ys[1..], sep);
      [xs[0][0]] + (ys[0] + [sep] + Join(ys[1..], sep));
      [xs[0][0]] + Join(ys, sep);
    }
  }

  /** Dropping the first piece keeps the pieces separator-free. */
  lemma SeparatorFreeTail(xs: seq<string>, sep: char)
    requires |xs| >= 1 && SeparatorFree(xs, sep)
    ensures SeparatorFree(xs[1..], sep)
  {
    var tail := xs[1..];
    forall k, j | 0 <= k < |tail| && 0 <= j < |tail[k]| ensures tail[k][j] != sep {
      assert tail[k] == xs[k + 1];
    }
  }

  /** Dropping the first character of the first piece keeps the pieces separator-free. */
  lemma SeparatorFreeShift(xs: seq<string>, sep: char)
    requires |xs| >= 1 && |xs[0]| >= 1 && SeparatorFree(xs, sep)
    ensures SeparatorFree([xs[0][1..]] + xs[1..], sep)
  {
    var ys := [xs[0][1..]] + xs[1..];
    forall k, j | 0 <= k < |ys| && 0 <= j < |ys[k]| ensures ys[k][j] != sep {
      if k == 0 {
        assert ys[0][j] == xs[0][j + 1];
      } else {
        assert ys[k] == xs[k];
      }
    }
  }

  /** A leading separator splits off an empty first piece. */
  lemma SplitAtSeparator(s: string, sep: char)
    ensures Split([sep] + s, sep) == [""] + Split(s, sep)
  {
    assert ([sep] + s)[1..] == s;
  }

  /** A leading non-separator character joins the first piece. */
  lemma SplitAtCharacter(c: char, s: string, sep: char)
    requires c != sep
    ensures Split([c] + s, sep) == [[c] + Split(s, sep)[0]] + Split(s, sep)[1..]
  {
    assert ([c] + s)[1..] == s;
  }

  /** A separator-free string splits into itself alone. */
  lemma {:induction false} SplitPiece(s: string, sep: char)
    requires forall j :: 0 <= j < |s| ==> s[j] != sep
    ensures Split(s, sep) == [s]
    decreases |s|
  {
    if |s| > 0 {
      SplitPiece(s[1..], sep);
      assert s == [s[0]] + s[1..];
    }
  }

  /** The characters Python's `str.split()` treats as whitespace (its ASCII and Latin-1 members). */
  predicate IsSpace(c: char) {
    c == ' ' || ('\t' <= c <= '\r') || ('\U{1c}' <= c <= '\U{1f}') || c == '\U{85}' || c == '\U{a0}'
  }

  /** Number of words starting in `s`, given whether the character before `s` was whitespace. */
  function CountFrom(s: string, afterSpace: bool): nat
  {
    if |s| == 0 then 0
    else (if afterSpace && !IsSpace(s[0]) then 1 else 0) + CountFrom(s[1..], IsSpace(s[0]))
  }

  /** `len(s.split())`: the number of maximal runs of non-whitespace characters. */
  function WordCount(s: string): nat
  {
    CountFrom(s, true)
  }

  /** Whether the boundary after `a` (entered in state `afterSpace`) is a word boundary. */
  function EndsInSpace(a: string, afterSpace: bool): bool
  {
    if |a| == 0 then afterSpace else IsSpace(a[|a| - 1])
  }

  /** Word counting is additive over concatenation, given the state at the seam. */
  lemma {:induction false} CountFromConcat(a: string, b: string, afterSpace: bool)
    ensures CountFrom(a + b, afterSpace) == CountFrom(a, afterSpace) + CountFrom(b, EndsInSpace(a, afterSpace))
    decreases |a|
  {
    if |a| == 0 {
      assert a + b == b;
    } else {
      assert (a + b)[0] == a[0];
      assert (a + b)[1..] == a[1..] + b;
      CountFromConcat(a[1..], b, IsSpace(a[0]));
      if |a| > 1 {
        assert a[1..][|a[1..]| - 1] == a[|a| - 1];
      }
    }
  }

  /** Gluing two texts with a space adds their word counts: the space keeps words apart. */
  lemma WordCountSpaced(a: string, b: string)
    ensures WordCount(a + " " + b) == WordCount(a) + WordCount(b)
  {
    CountFromConcat(a, " " + b, true);
    CountFromConcat(" ", b, EndsInSpace(a, true));
    assert a + " " + b == a + (" " + b);
  }

  /** A non-empty run of non-whitespace characters is one word. */
  lemma {:induction false} OneWord(w: string)
    requires |w| > 0 && forall j :: 0 <= j < |w| ==> !IsSpace(w[j])
    ensures WordCount(w) == 1
  {
    NoWordStarts(w[1..]);
  }

  /** Continuing inside a word never starts a new one. */
  lemma {:induction false} NoWordStarts(w: string)
    requires forall j :: 0 <= j < |w| ==> !IsSpace(w[j])
    ensures CountFrom(w, false) == 0
    decreases |w|
  {
    if |w| > 0 {
      NoWordStarts(w[1..]);
    }
  }
}

=== FILE: unit_inference.dfy ===
/**
 Unit inference for a metric: an ordered list of keyword rules over the
 lower-cased metric name, the first rule that matches deciding the unit, the
 axis label, the value range and the number of decimals.
 */
module UnitInference {
  import opened Text

  /** The semantic units a metric can be given. */
  datatype Unit = Score | Percent | Sprints | Count | Days | Hours | Minutes | Index | Complexity

  /** The unit tag written into a metric record. */
  function UnitName(u: Unit): string
  {
    match u
    case Score => "score"
    case Percent => "%"
    case Sprints => "sprints"
    case Count => "count"
    case Days => "days"
    case Hours => "hours"
    case Minutes => "minutes"
    case Index => "index"
    case Complexity => "complexity"
  }

  /** Unit tags are distinct, so a tag identifies its unit. */
  lemma UnitNameInjective(u: Unit, v: Unit)
    ensures UnitName(u) == UnitName(v) <==> u == v
  {
  }

  /** What a rule decides: unit, axis label, value range `[lo, hi]` and decimals. */
  datatype UnitSpec = UnitSpec(unit: Unit, axisLabel: string, lo: int, hi: int, decimals: nat)

  const ScoreSpec := UnitSpec(Score, "Score (0–10)", 0, 10, 1)
  const PercentSpec := UnitSpec(Percent, "%", 0, 100, 1)
  const SprintsSpec := UnitSpec(Sprints, "Number of Sprints", 0, 8, 1)
  const CountSpec := UnitSpec(Count, "Count", 0, 120, 0)
  const DaysSpec := UnitSpec(Days, "Days", 0, 30, 1)
  const HoursSpec := UnitSpec(Hours, "Hours", 0, 80, 1)
  const MinutesSpec := UnitSpec(Minutes, "Minutes", 0, 180, 0)
  const IndexSpec := UnitSpec(Index, "Index", 0, 100, 1)
  const MaintainabilitySpec := UnitSpec(Index, "Maintainability Index", 0, 100, 1)
  const ComplexitySpec := UnitSpec(Complexity, "Complexity Score", 0, 30, 1)
  /** The outcome when no rule matches. */
  const DefaultSpec := UnitSpec(Count, "Count", 0, 100, 0)

  // The guards of the rules, in the order they are tried, over a lower-cased name.

  predicate IsScoreName(l: string) {
    Contains(l, "self-assessment score") || Contains(l, "rate") || Contains(l, "score")
  }

  predicate IsPercentName(l: string) {
    Contains(l, "%") || Contains(l, "percent") || Contains(l, "coverage")
  }

  predicate IsSprintsName(l: string) {
    Contains(l, "sprint") && (Contains(l, "avg number") || Contains(l, "number of sprints"))
  }

  predicate IsCountName(l: string) {
    Contains(l, "# of") || Contains(l, "number of") || Contains(l, "count")
  }

  predicate IsDaysName(l: string) {
    Contains(l, "days") || Contains(l, "duration") || Contains(l, "age")
  }

  predicate IsHoursName(l: string) {
    Contains(l, "hours") || Contains(l, "hour")
  }

  predicate IsMinutesName(l: string) {
    Contains(l, "minutes")
  }

  predicate IsTouchTimeName(l: string) {
    Contains(l, "touch time") || Contains(l, "total time")
  }

  predicate IsIndexName(l: string) {
    Contains(l, "index")
  }

  predicate IsMaintainabilityName(l: string) {
    Contains(l, "maintainability index")
  }

  predicate IsComplexityName(l: string) {
    Contains(l, "complexity") || Contains(l, "cyclomatic")
  }

  /** The rule chain applied to an already lower-cased name. */
  function Classify(l: string): (r: UnitSpec)
    ensures 0 == r.lo < r.hi
    ensures r.decimals <= 1
  {
    if IsScoreName(l) then ScoreSpec
    else if IsPercentName(l) then PercentSpec
    else if IsSprintsName(l) then SprintsSpec
    else if IsCountName(l) then CountSpec
    else if IsDaysName(l) then DaysSpec
    else if IsHoursName(l) then HoursSpec
    else if IsMinutesName(l) then MinutesSpec
    else if IsTouchTimeName(l) then DaysSpec
    else if IsIndexName(l) then IndexSpec
    else if IsMaintainabilityName(l) then MaintainabilitySpec
    else if IsComplexityName(l) then ComplexitySpec
    else DefaultSpec
  }

  /** `guess_unit_and_range`: total, never fails, always a well-formed range. */
  function GuessUnitAndRange(metricName: string): (r: UnitSpec)
    ensures 0 == r.lo < r.hi
    ensures r.decimals <= 1
  {
    Classify(Lower(metricName))
  }

  /** The result depends only on the lower-cased name. */
  lemma GuessIsCaseInsensitive(metricName: string)
    ensures GuessUnitAndRange(Lower(metricName)) == GuessUnitAndRange(metricName)
  {
    LowerIdempotent(metricName);
  }

  // ---------------------------------------------------------------------------
  // The rule table: the same rules as data, an ordered list of (guard, outcome)
  // pairs tried first to last.

  /** A rule guard: some keyword occurs, or a keyword together with one of several others. */
  datatype Guard = AnyOf(words: seq<string>) | AllOf(word: string, anyOf: seq<string>)

  /** Some keyword of `words` occurs in `l`. */
  predicate MentionsAny(l: string, words: seq<string>)
  {
    |words| > 0 && (Contains(l, words[0]) || MentionsAny(l, words[1..]))
  }

  lemma MentionsOne(l: string, a: string)
    ensures MentionsAny(l, [a]) == Contains(l, a)
  {
    assert [a][1..] == [];
  }

  lemma MentionsTwo(l: string, a: string, b: string)
    ensures MentionsAny(l, [a, b]) == (Contains(l, a) || Contains(l, b))
  {
    assert [a, b][1..] == [b];
    MentionsOne(l, b);
  }

  lemma MentionsThree(l: string, a: string, b: string, c: string)
    ensures MentionsAny(l, [a, b, c]) == (Contains(l, a) || Contains(l, b) || Contains(l, c))
  {
    assert [a, b, c][1..] == [b, c];
    MentionsTwo(l, b, c);
  }

  /** Whether a guard holds of a lower-cased name. */
  ghost predicate Holds(g: Guard, l: string)
  {
    match g
    case AnyOf(ws) => MentionsAny(l, ws)
    case AllOf(w, ws) => Contains(l, w) && MentionsAny(l, ws)
  }

  datatype Rule = Rule(guard: Guard, outcome: UnitSpec)

  const RuleTable: seq<Rule> := [
    Rule(AnyOf(["self-assessment score", "rate", "score"]), ScoreSpec),
    Rule(AnyOf(["%", "percent", "coverage"]), PercentSpec),
    Rule(AllOf("sprint", ["avg number", "number of sprints"]), SprintsSpec),
    Rule(AnyOf(["# of", "number of", "count"]), CountSpec),
    Rule(AnyOf(["days", "duration", "age"]), DaysSpec),
    Rule(AnyOf(["hours", "hour"]), HoursSpec),
    Rule(AnyOf(["minutes"]), MinutesSpec),
    Rule(AnyOf(["touch time", "total time"]), DaysSpec),
    Rule(AnyOf(["index"]), IndexSpec),
    Rule(AnyOf(["maintainability index"]), MaintainabilitySpec),
    Rule(AnyOf(["complexity", "cyclomatic"]), ComplexitySpec)
  ]

  /** The outcome of the first rule whose guard holds, or the default. */
  ghost function FirstMatch(rules: seq<Rule>, l: string): (r: UnitSpec)
  {
    if |rules| == 0 then DefaultSpec
    else if Holds(rules[0].guard, l) then rules[0].outcome
    else FirstMatch(rules[1..], l)
  }

  /** Trying the rules from position `k` on: rule `k` if its guard holds, else the rules after it. */
  lemma FirstMatchAt(rules: seq<Rule>, k: nat, l: string)
    requires k < |rules|
    ensures FirstMatch(rules[k..], l)
      == if Holds(rules[k].guard, l) then rules[k].outcome else FirstMatch(rules[k + 1..], l)
  {
    assert rules[k..][1..] == rules[k + 1..];
  }

  /** The last four rules of the table, from the touch-time rule on. */
  lemma LateRulesMatch(l: string)
    ensures FirstMatch(RuleTable[7..], l)
      == if IsTouchTimeName(l) then DaysSpec
         else if IsIndexName(l) then IndexSpec
         else if IsMaintainabilityName(l) then MaintainabilitySpec
         else if IsComplexityName(l) then ComplexitySpec
         else DefaultSpec
  {
    var t := RuleTable;
    assert FirstMatch(t[10..], l) == if IsComplexityName(l) then ComplexitySpec else DefaultSpec by {
      FirstMatchAt(t, 10, l);
      assert t[11..] == [];
      MentionsTwo(l, "complexity", "cyclomatic");
    }
    assert FirstMatch(t[9..], l)
      == if IsMaintainabilityName(l) then MaintainabilitySpec else FirstMatch(t[10..], l) by {
      FirstMatchAt(t, 9, l);
      MentionsOne(l, "maintainability index");
    }
    assert FirstMatch(t[8..], l) == if IsIndexName(l) then IndexSpec else FirstMatch(t[9..], l) by {
      FirstMatchAt(t, 8, l);
      MentionsOne(l, "index");
    }
    FirstMatchAt(t, 7, l);
    MentionsTwo(l, "touch time", "total time");
  }

  /** The middle rules of the table, from the count rule to the minutes rule, then the late ones. */
  lemma MiddleRulesMatch(l: string)
    ensures FirstMatch(RuleTable[3..], l)
      == if IsCountName(l) then CountSpec
         else if IsDaysName(l) then DaysSpec
         else if IsHoursName(l) then HoursSpec
         else if IsMinutesName(l) then MinutesSpec
         else FirstMatch(RuleTable[7..], l)
  {
    var t := RuleTable;
    assert FirstMatch(t[6..], l) == if IsMinutesName(l) then MinutesSpec else FirstMatch(t[7..], l) by {
      FirstMatchAt(t, 6, l);
      MentionsOne(l, "minutes");
    }
    assert FirstMatch(t[5..], l) == if IsHoursName(l) then HoursSpec else FirstMatch(t[6..], l) by {
      FirstMatchAt(t, 5, l);
      MentionsTwo(l, "hours", "hour");
    }
    assert FirstMatch(t[4..], l) == if IsDaysName(l) then DaysSpec else FirstMatch(t[5..], l) by {
      FirstMatchAt(t, 4, l);
      MentionsThree(l, "days", "duration", "age");
    }
    FirstMatchAt(t, 3, l);
    MentionsThree(l, "# of", "number of", "count");
  }

  /** The rule chain is exactly "first match wins" over the rule table. */
  lemma ClassifyIsFirstMatch(l: string)
    ensures Classify(l) == FirstMatch(RuleTable, l)
  {
    var t := RuleTable;
    LateRulesMatch(l);
    MiddleRulesMatch(l);
    assert FirstMatch(t[2..], l) == if IsSprintsName(l) then SprintsSpec else FirstMatch(t[3..], l) by {
      FirstMatchAt(t, 2, l);
      MentionsTwo(l, "avg number", "number of sprints");
    }
    assert FirstMatch(t[1..], l) == if IsPercentName(l) then PercentSpec else FirstMatch(t[2..], l) by {
      FirstMatchAt(t, 1, l);
      MentionsThree(l, "%", "percent", "coverage");
    }
    assert FirstMatch(t, l) == if IsScoreName(l) then ScoreSpec else FirstMatch(t[1..], l) by {
      FirstMatchAt(t, 0, l);
      assert t[0..] == t;
      MentionsThree(l, "self-assessment score", "rate", "score");
    }
  }

  /** `guess_unit_and_range` is the rule table applied to the lower-cased name. */
  lemma GuessFollowsRuleTable(metricName: string)
    ensures GuessUnitAndRange(metricName) == FirstMatch(RuleTable, Lower(metricName))
  {
    ClassifyIsFirstMatch(Lower(metricName));
  }

  // ---------------------------------------------------------------------------
  // Rule priority.

  /** Any name mentioning "score" or "rate" is a score, whatever else it mentions. */
  lemma ScoreRuleWins(metricName: string)
    requires Contains(Lower(metricName), "score") || Contains(Lower(metricName), "rate")
    ensures GuessUnitAndRange(metricName) == ScoreSpec
  {
  }

  /** The keyword "self-assessment score" contains "score". */
  lemma ScoreInKeyword()
    ensures Contains("self-assessment score", "score")
  {
    assert "self-assessment score" == "self-assessment " + "score";
    ContainsSuffix("self-assessment ", "score");
  }

  /** The keyword "maintainability index" contains "index". */
  lemma IndexInKeyword()
    ensures Contains("maintainability index", "index")
  {
    assert "maintainability index" == "maintainability " + "index";
    ContainsSuffix("maintainability ", "index");
  }

  /** The "self-assessment score" keyword is subsumed by "score". */
  lemma SelfAssessmentKeywordRedundant(l: string)
    ensures IsScoreName(l) <==> Contains(l, "rate") || Contains(l, "score")
  {
    if Contains(l, "self-assessment score") {
      ScoreInKeyword();
      ContainsTransitive(l, "self-assessment score", "score");
    }
  }

  /** The "maintainability index" rule can never fire: "index" is tried first. */
  lemma MaintainabilityRuleUnreachable(metricName: string)
    ensures GuessUnitAndRange(metricName) != MaintainabilitySpec
    ensures GuessUnitAndRange(metricName).axisLabel != "Maintainability Index"
  {
    var l := Lower(metricName);
    if IsMaintainabilityName(l) {
      IndexInKeyword();
      ContainsTransitive(l, "maintainability index", "index");
    }
  }

  /** The units of the rules tried before the "index" rule. */
  const EarlyUnits: set<Unit> := {Score, Percent, Sprints, Count, Days, Hours, Minutes}

  /** A maintainability-index name that no earlier rule claims gets the plain "Index" outcome. */
  lemma MaintainabilityNamesGetIndex(metricName: string)
    requires Contains(Lower(metricName), "maintainability index")
    requires GuessUnitAndRange(metricName).unit !in EarlyUnits
    ensures GuessUnitAndRange(metricName) == IndexSpec
  {
    var l := Lower(metricName);
    assert IsIndexName(l) by {
      IndexInKeyword();
      ContainsTransitive(l, "maintainability index", "index");
    }
    IndexNameOutcomes(l);
  }

  /** A name mentioning "index" is claimed by one of the first eight rules or gets the "Index" outcome. */
  lemma IndexNameOutcomes(l: string)
    requires IsIndexName(l)
    ensures Classify(l).unit in EarlyUnits || Classify(l) == IndexSpec
  {
  }

  /** The sprints outcome arises exactly when its guard holds and neither earlier rule does. */
  lemma SprintsRuleExactly(metricName: string)
    ensures var l := Lower(metricName);
      (GuessUnitAndRange(metricName).unit == Sprints)
        <==> (IsSprintsName(l) && !IsScoreName(l) && !IsPercentName(l))
  {
  }

  /** A "number of" name outside the sprints rule falls to a count in `0..120`. */
  lemma NumberOfIsCount(metricName: string)
    requires var l := Lower(metricName);
      Contains(l, "number of") && !IsScoreName(l) && !IsPercentName(l) && !IsSprintsName(l)
    ensures GuessUnitAndRange(metricName) == CountSpec
  {
  }

  /** The default outcome arises exactly when no rule's guard holds. */
  lemma DefaultExactlyWhenNoRuleMatches(metricName: string)
    ensures var l := Lower(metricName);
      (GuessUnitAndRange(metricName) == DefaultSpec)
        <==> !(IsScoreName(l) || IsPercentName(l) || IsSprintsName(l) || IsCountName(l)
               || IsDaysName(l) || IsHoursName(l) || IsMinutesName(l) || IsTouchTimeName(l)
               || IsIndexName(l) || IsMaintainabilityName(l) || IsComplexityName(l))
  {
  }
}

=== FILE: update_driver.dfy ===
/**
 The update driver: `update_metrics` and `process_tree` walk an indicator
 tree in pre-order and, for every metric, infer its unit and range from its
 name, generate a fresh series and overwrite the metric's `unit`,
 `y_axis_label`, `timeseries` and `value`. One random source is threaded
 through the walk, metric after metric.
 */
module UpdateDriver {
  import opened Base
  import opened Text
  import opened Rounding
  import opened UnitInference
  import opened Series
  import opened IndicatorTree

  /**
   A metric whose generated fields are what the driver writes for its name:
   the inferred unit tag and axis label, a series of 12 rounded points inside
   the inferred range, and a value equal to the last point.
   */
  ghost predicate Generated(m: Metric)
  {
    var spec := GuessUnitAndRange(m.name);
    && m.unit == Some(UnitName(spec.unit))
    && m.yAxisLabel == Some(spec.axisLabel)
    && m.timeseries.Some?
    && |m.timeseries.value| == SeriesLength
    && (forall k :: 0 <= k < SeriesLength ==>
          spec.lo as real <= m.timeseries.value[k] <= spec.hi as real
          && IsRounded(m.timeseries.value[k], spec.decimals))
    && m.value == Some(m.timeseries.value[SeriesLength - 1])
  }

  /** Every metric of the tree rooted at `n` is generated. */
  ghost predicate AllGenerated(n: Node)
    decreases n
  {
    && (forall i :: 0 <= i < |n.metrics| ==> Generated(n.metrics[i]))
    && (forall i :: 0 <= i < |n.children| ==> AllGenerated(n.children[i]))
  }

  /** `m'` is `m` with the generated fields written for its name and nothing else changed. */
  ghost predicate Updated(m: Metric, m': Metric) {
    KeepsRecord(m, m') && Generated(m')
  }

  /** The body of `update_metrics`' loop for one metric. */
  function UpdateMetric(m: Metric, rng: seq<real>): (r: Drawn<Metric>)
    requires |rng| >= MaxDraws && UnitDraws(rng)
    ensures r.used <= MaxDraws
  {
    var spec := GuessUnitAndRange(m.name);
    var ts := GenerateRealisticTimeseries(spec.unit, spec.lo, spec.hi, spec.decimals, rng);
    var last := ts.value[|ts.value| - 1];
    var m' := m.(unit := Some(UnitName(spec.unit)),
                 yAxisLabel := Some(spec.axisLabel),
                 timeseries := Some(ts.value),
                 value := Some(Round(last, spec.decimals)));
    Drawn(m', ts.used)
  }

  /** One metric's update writes exactly the generated fields, as `Generated` describes them. */
  lemma UpdateMetricUpdates(m: Metric, rng: seq<real>)
    requires |rng| >= MaxDraws && UnitDraws(rng)
    ensures Updated(m, UpdateMetric(m, rng).value)
  {
  }

  /** Draws enough for `n` series: `MaxDraws` each. */
  ghost function Budget(n: nat): nat {
    MaxDraws * n
  }

  lemma BudgetStep(n: nat)
    requires n >= 1
    ensures Budget(n) == MaxDraws + Budget(n - 1)
  {
  }

  lemma BudgetOfSum(c: nat, a: nat, b: nat)
    requires c == a + b
    ensures Budget(c) == Budget(a) + Budget(b)
  {
  }

  /** A tree's budget is its own metrics' plus its children's. */
  lemma CountOfTree(n: Node)
    ensures MetricCount([n]) == |n.metrics| + MetricCount(n.children)
    ensures Budget(MetricCount([n])) == Budget(|n.metrics|) + Budget(MetricCount(n.children))
  {
    assert [n][1..] == [];
    assert MetricCount([n]) == |n.metrics| + MetricCount(n.children) + MetricCount([n][1..]);
    BudgetOfSum(MetricCount([n]), |n.metrics|, MetricCount(n.children));
  }

  /** `update_metrics`: every metric of the list, in order, each on the draws the previous one left. */
  function UpdateMetrics(ms: seq<Metric>, rng: seq<real>): (r: Drawn<seq<Metric>>)
    requires |rng| >= Budget(|ms|) && UnitDraws(rng)
    ensures |r.value| == |ms|
    ensures r.used <= Budget(|ms|)
    decreases |ms|
  {
    if |ms| == 0 then Drawn([], 0)
    else
      BudgetStep(|ms|);
      var head := UpdateMetric(ms[0], rng);
      var tail := UpdateMetrics(ms[1..], rng[head.used..]);
      Drawn([head.value] + tail.value, head.used + tail.used)
  }

  /** Each metric of `ms'` is the update of the metric at the same position of `ms`. */
  ghost predicate UpdatedList(ms: seq<Metric>, ms': seq<Metric>)
    decreases |ms|
  {
    && |ms'| == |ms|
    && (|ms| > 0 ==> Updated(ms[0], ms'[0]) && UpdatedList(ms[1..], ms'[1..]))
  }

  /** `UpdatedList` position by position. */
  lemma {:induction false} UpdatedListIndex(ms: seq<Metric>, ms': seq<Metric>)
    requires UpdatedList(ms, ms')
    ensures |ms'| == |ms| && forall i :: 0 <= i < |ms| ==> Updated(ms[i], ms'[i])
    decreases |ms|
  {
    if |ms| > 0 {
      UpdatedListIndex(ms[1..], ms'[1..]);
      forall i | 1 <= i < |ms| ensures Updated(ms[i], ms'[i]) {
        assert ms[i] == ms[1..][i - 1] && ms'[i] == ms'[1..][i - 1];
      }
    }
  }

  /** `update_metrics` rewrites every metric of the list and keeps the rest of each record. */
  lemma {:induction false} UpdateMetricsUpdatesAll(ms: seq<Metric>, rng: seq<real>)
    requires |rng| >= Budget(|ms|) && UnitDraws(rng)
    ensures UpdatedList(ms, UpdateMetrics(ms, rng).value)
    decreases |ms|
  {
    if |ms| > 0 {
      BudgetStep(|ms|);
      var used := UpdateMetric(ms[0], rng).used;
      var rest := rng[used..];
      assert UnitDraws(rest) by {
        assert forall k :: 0 <= k < |rest| ==> rest[k] == rng[used + k];
      }
      UpdateMetricsUpdatesAll(ms[1..], rest);
      UpdatedListStep(ms, rng, rest);
    }
  }

  /** The step of `UpdateMetricsUpdatesAll`: the first update, then the rest of the list on the draws it leaves. */
  lemma UpdatedListStep(ms: seq<Metric>, rng: seq<real>, rest: seq<real>)
    requires |ms| > 0 && |rng| >= MaxDraws && |rng| >= Budget(|ms|) && UnitDraws(rng)
    requires rest == rng[UpdateMetric(ms[0], rng).used..]
    requires |rest| >= Budget(|ms| - 1) && UnitDraws(rest)
    requires UpdatedList(ms[1..], UpdateMetrics(ms[1..], rest).value)
    ensures UpdatedList(ms, UpdateMetrics(ms, rng).value)
  {
    UpdateMetricUpdates(ms[0], rng);
    var all := UpdateMetrics(ms, rng).value;
    assert all[1..] == UpdateMetrics(ms[1..], rest).value;
  }

  /** `process_tree`: the node's own metrics, then each child's subtree in order. */
  function ProcessTree(n: Node, rng: seq<real>): (r: Drawn<Node>)
    requires |rng| >= Budget(MetricCount([n])) && UnitDraws(rng)
    ensures r.used <= Budget(MetricCount([n]))
    decreases n, 1
  {
    CountOfTree(n);
    var ms := UpdateMetrics(n.metrics, rng);
    var cs := ProcessForest(n.children, rng[ms.used..]);
    Drawn(n.(metrics := ms.value, children := cs.value), ms.used + cs.used)
  }

  /** `process_tree` over a list of trees: the children loop, and the loop over the roots. */
  function ProcessForest(ns: seq<Node>, rng: seq<real>): (r: Drawn<seq<Node>>)
    requires |rng| >= Budget(MetricCount(ns)) && UnitDraws(rng)
    ensures |r.value| == |ns|
    ensures r.used <= Budget(MetricCount(ns))
    decreases ns, 0
  {
    if |ns| == 0 then Drawn([], 0)
    else
      CountSplit(ns);
      var head := ProcessTree(ns[0], rng);
      var tail := ProcessForest(ns[1..], rng[head.used..]);
      Drawn([head.value] + tail.value, head.used + tail.used)
  }

  /** The draw budget of a forest is its first tree's budget plus the rest's. */
  lemma CountSplit(ns: seq<Node>)
    requires |ns| > 0
    ensures MetricCount(ns) == MetricCount([ns[0]]) + MetricCount(ns[1..])
    ensures Budget(MetricCount(ns)) == Budget(MetricCount([ns[0]])) + Budget(MetricCount(ns[1..]))
  {
    assert [ns[0]][1..] == [];
    BudgetOfSum(MetricCount(ns), MetricCount([ns[0]]), MetricCount(ns[1..]));
  }

  /** `n'` is `n` with every metric generated and nothing else changed. */
  ghost predicate Rewritten(n: Node, n': Node) {
    SameShape(n, n') && AllGenerated(n')
  }

  /** Each tree of `ns'` is the rewrite of the tree at the same position of `ns`. */
  ghost predicate RewrittenList(ns: seq<Node>, ns': seq<Node>)
    decreases |ns|
  {
    && |ns'| == |ns|
    && (|ns| > 0 ==> Rewritten(ns[0], ns'[0]) && RewrittenList(ns[1..], ns'[1..]))
  }

  lemma RewrittenListCons(n: Node, n': Node, ns: seq<Node>, ns': seq<Node>)
    requires Rewritten(n, n') && RewrittenList(ns, ns')
    ensures RewrittenList([n] + ns, [n'] + ns')
  {
    assert ([n] + ns)[1..] == ns && ([n'] + ns')[1..] == ns';
  }

  /** `RewrittenList` position by position. */
  lemma {:induction false} RewrittenListIndex(ns: seq<Node>, ns': seq<Node>)
    requires RewrittenList(ns, ns')
    ensures |ns'| == |ns| && forall i :: 0 <= i < |ns| ==> Rewritten(ns[i], ns'[i])
    decreases |ns|
  {
    if |ns| > 0 {
      RewrittenListIndex(ns[1..], ns'[1..]);
      forall i | 1 <= i < |ns| ensures Rewritten(ns[i], ns'[i]) {
        assert ns[i] == ns[1..][i - 1] && ns'[i] == ns'[1..][i - 1];
      }
    }
  }

  /** A node whose metrics are updated and whose children are rewritten is rewritten. */
  lemma Assemble(n: Node, ms': seq<Metric>, cs': seq<Node>)
    requires UpdatedList(n.metrics, ms') && RewrittenList(n.children, cs')
    ensures Rewritten(n, n.(metrics := ms', children := cs'))
  {
    UpdatedListIndex(n.metrics, ms');
    RewrittenListIndex(n.children, cs');
  }

  /**
   `process_tree` generates every metric of the tree and changes nothing else:
   the result has the shape and pass-through fields of the input.
   */
  lemma {:induction false} ProcessTreeRewrites(n: Node, rng: seq<real>)
    requires |rng| >= Budget(MetricCount([n])) && UnitDraws(rng)
    ensures Rewritten(n, ProcessTree(n, rng).value)
    decreases n, 1
  {
    CountOfTree(n);
    var ms := UpdateMetrics(n.metrics, rng);
    var cs := ProcessForest(n.children, rng[ms.used..]);
    UpdateMetricsUpdatesAll(n.metrics, rng);
    ProcessForestRewrites(n.children, rng[ms.used..]);
    Assemble(n, ms.value, cs.value);
  }

  /** The same, tree by tree, for a list of trees. */
  lemma {:induction false} ProcessForestRewrites(ns: seq<Node>, rng: seq<real>)
    requires |rng| >= Budget(MetricCount(ns)) && UnitDraws(rng)
    ensures RewrittenList(ns, ProcessForest(ns, rng).value)
    decreases ns, 0
  {
    if |ns| > 0 {
      CountSplit(ns);
      var head := ProcessTree(ns[0], rng);
      var tail := ProcessForest(ns[1..], rng[head.used..]);
      ProcessTreeRewrites(ns[0], rng);
      ProcessForestRewrites(ns[1..], rng[head.used..]);
      assert ProcessForest(ns, rng).value == [head.value] + tail.value;
      assert ns == [ns[0]] + ns[1..];
      RewrittenListCons(ns[0], head.value, ns[1..], tail.value);
    }
  }

  /** A node without metrics or children comes back unchanged and consumes no draws. */
  lemma BareNodeUnchanged(n: Node, rng: seq<real>)
    requires n.metrics == [] && n.children == [] && UnitDraws(rng)
    ensures ProcessTree(n, rng) == Drawn(n, 0)
  {
    assert MetricCount([n]) == 0 by {
      assert [n][1..] == [];
    }
  }

  /**
   Running the driver again on a tree of the same shape, in particular on its
   own output, needs the same number of draws and once more yields a rewrite
   of the original tree.
   */
  lemma ReprocessingKeepsShape(n: Node, once: Node, rng: seq<real>)
    requires SameShape(n, once)
    requires |rng| >= Budget(MetricCount([n])) && UnitDraws(rng)
    ensures MetricCount([once]) == MetricCount([n])
    ensures Rewritten(n, ProcessTree(once, rng).value)
  {
    SameShapeCount([n], [once]);
    var twice := ProcessTree(once, rng).value;
    ProcessTreeRewrites(once, rng);
    SameShapeTransitive(n, once, twice);
  }

  /** Every metric `iter_metrics` yields from fully generated trees is generated. */
  lemma {:induction false} IteratedMetricsGenerated(nodes: seq<Node>)
    requires forall i :: 0 <= i < |nodes| ==> AllGenerated(nodes[i])
    ensures forall m :: m in IterMetrics(nodes) ==> Generated(m)
    decreases nodes
  {
    if |nodes| > 0 {
      var n := nodes[0];
      IteratedMetricsGenerated(n.children);
      IteratedMetricsGenerated(nodes[1..]);
      forall m | m in n.metrics ensures Generated(m) {
        var i :| 0 <= i < |n.metrics| && n.metrics[i] == m;
      }
    }
  }
}
